=== FILE: README.md ===
# Taller Intersecom order ledger, in Dafny

Taller Intersecom is a repair shop with several branches (`sucursales`). Its PHP backends keep the shop's ledger:

- repair orders (`ordenes`), with money fields derived from each other;
- the spare parts used on each order (`repuestos_utilizados`), whose sum is rolled up into the order;
- transfers of a device between branches (`traslados`), whose state decides the reception date;
- the clients and branches the orders refer to.

This project models the rules those backends apply to the tables, and proves them.

- `backend/api.php` (REST routes) is the class `RestApi.Ledger`. Its pure rules are in `RestModel`.
- `backend/api/api.php` (the `?action=` backend) is the class `ActionApi.Taller`. Its pure rules are in `ActionModel`.
- `validateRequired` from both configuration files is the loop `Validation.ValidateRequired`. It is proved equal to the filter `Validation.MissingFields`.
- `sanitizeInput` is the recursive function `Sanitize.SanitizeInput`.
- PHP's `trim` is modelled in `Text`. The decoded JSON body is modelled in `Input`. The newest-first sort that `ORDER BY ... DESC` performs is `Sorting.SortDesc`.

Each table is a field of the class. Ids are handed out by auto-increment counters, and every handler is one atomic step of a method. Conventions:

- Values the database supplies are parameters: `now`, `today`, and the generated `numero_orden`.
- Money is counted in integer centavos.
- Time is counted in seconds, and a day is `ts / 86400`.
- An id of 0 stands for "not given", as PHP's `!$id` treats it.

## Model

| member | source | states |
|---|---|---|
| Validation.ValidateRequired | backend/config.php:108-116 | The loop's result equals `MissingFields`. A field is reported exactly when it is required and absent, null, or trims to "". The result keeps the order of the required list as a subsequence of it. |
| Validation.MissingFieldsMembership | backend/config/config.example.php:115-123 | A field is in the result exactly when it is in the required list and missing from the data. |
| Validation.MissingFieldsIsSubsequence | backend/config/config.example.php:115-122 | The missing fields are a subsequence of the required fields, in the same order. |
| Validation.MissingFieldsEmptyIff | backend/config.php:108-116 | The result is empty exactly when every required field is present and non-blank. So an empty required list always gives an empty result. |
| Validation.MissingFields | backend/config.php:109-115 | The result never has more entries than the required list. |
| Validation.IsMissingIff | backend/config.php:111 | A field is missing exactly when it is absent, null, or a scalar made only of the characters `trim` strips. An array never counts as blank. |
| Text.Trim | backend/config.php:111 | `trim` never lengthens a string, and a non-empty result neither starts nor ends with a character it strips. |
| Text.TrimIsMiddle | backend/config.php:111 | `trim($s)` is a contiguous middle of `$s`, and everything before and after it is strippable. Together with the ends of `Trim`, this fixes the result to PHP's `trim`. |
| Text.TrimEmptyIffAllSpace | backend/config.php:111 | `trim($v) === ''` holds exactly when every character of `$v` is one that `trim` strips. |
| Text.TrimIdempotent | backend/config/config.example.php:132 | Trimming twice gives the same string as trimming once. |
| Sanitize.SanitizeInput | backend/config/config.example.php:128-133 | An array stays an array of the same length with the same keys in the same order. Any other value becomes a string. |
| Sanitize.SanitizedLeaves | backend/config/config.example.php:128-133 | The scalars of the result, read depth first, are the scalars of the input, each trimmed and then escaped. With the preserved shape, every element is sanitized where it stands, at every depth. |
| Sanitize.SanitizePreservesShape | backend/config/config.example.php:128-131 | Sanitizing an array keeps its keys, their order and its length at every level of nesting. |
| Sanitize.SanitizedIsAllText | backend/config/config.example.php:128-133 | After sanitizing, every scalar at every depth is a string. |
| Sanitize.SanitizeIgnoresSurroundingBlanks | backend/config/config.example.php:132 | Sanitizing a string gives the same result as sanitizing its trimmed form. |
| Sorting.SortDesc | backend/api.php:384 | The result is sorted by the key, newest first, and is a permutation of the input. |
| Sorting.OmittedFromPrefix | backend/api.php:384 | A row cut off by a `LIMIT` on a newest-first result is no newer than the last row kept, and the cut happened only because rows remained. |
| RestModel.OrderValidationIff | backend/api.php:396-401 | An order is created exactly when client, branch, device type and fault are all given and non-blank. |
| RestModel.PartValidationIff | backend/api.php:565-570 | A part is added exactly when order, description, quantity and unit price are all given, with a non-blank description. |
| RestModel.TransferValidationIff | backend/api.php:706-711 | A transfer is created exactly when the order and both branches are given. |
| RestModel.NewOrderRow | backend/api.php:407-430 | A new order carries the requested client, branch, device (type, brand, model, colour, access data, accessories), fault, estimated date, notes and receiver, and the generated number. It starts in 'Recibido', received now, undelivered, with the requested estimate and deposit, parts and labour cost 0, and a consistent total. |
| RestModel.UpdatedOrder | backend/api.php:463-514 | After an update, the device columns, fault, work detail, state, estimated date, notes and deliverer are the ones sent. So are the estimate, parts, labour and deposit amounts, an omitted amount counting as 0. `valor_total = costo_estimado + costo_repuestos + costo_trabajo`. A save as 'Entregado' sets `fecha_entrega` to now; any other state leaves it unchanged. The order number, client, branch, intake time and receiver never change. |
| RestModel.RedeliveryMovesStamp | backend/api.php:511-514 | Saving an already delivered order as 'Entregado' again moves its delivery date. |
| RestModel.CancelledOrder | backend/api.php:532 | The soft delete sets the state to 'Cancelado' and changes nothing else. |
| RestModel.PartsCostAppend | backend/api.php:587-594 | Appending a part raises its order's parts sum by the part's price. Every other order's sum is unchanged. |
| RestModel.PartsCost | backend/api.php:641 | An order with no parts has a parts sum of 0, the `COALESCE` case. |
| RestModel.PartsCostWithout | backend/api.php:634-645 | Deleting a part lowers its order's parts sum by that part's price. Other orders' sums are unchanged, and the table shrinks by exactly one row. |
| RestModel.Without | backend/api.php:634-635 | After the delete no row carries the id, and the table has not grown. |
| RestModel.WithoutAbsent | backend/api.php:634-635 | Deleting an id that no row has leaves the table as it was. |
| RestModel.WithoutKeepsOthers | backend/api.php:634-635 | The delete keeps every row with another id. |
| RestModel.WithoutStaysUnique | backend/api.php:634-635 | Part ids stay unique after a delete. |
| RestModel.OwnerAt | backend/api.php:628-630 | When part ids are unique, the order found for a part id is the order of the row that carries it. |
| RestModel.Rollup | backend/api.php:638-648 | The rollup stores the given parts sum as `costo_repuestos` and sets `valor_total` to estimate plus parts plus labour. Estimate, labour, deposit and every non-money column are unchanged. |
| RestModel.AddThenRemove | backend/api.php:575-645 | Adding a part and then deleting it restores the parts table. |
| RestModel.UpdateCanDesyncParts | backend/api.php:476-503 | An order update takes `costo_repuestos` from the request, so it can break "parts cost = sum of parts". The lemma shows a concrete order where this happens. |
| RestModel.PartRollupScenario | backend/api.php:587-603 | Worked example: a 2 x 25.00 part raises a 100.00 total to 150.00 and the balance to 100.00. Removing it restores both. |
| RestModel.PartsCostOverPartsOf | backend/api.php:321-323 | The parts sum is the sum over exactly the rows that the order's parts query returns. |
| RestModel.PartsOf | backend/api.php:321-323 | An order's parts are exactly the table rows with that order's id. |
| Common.HistoryOf | backend/api.php:327 | An order's history is exactly the history rows with that order's id. The action backend runs the same query (backend/api/api.php:135). |
| RestModel.RowOf | backend/api.php:340-358 | A listing row carries the order's id, number, intake date, state, total and deposit, and `saldo_pendiente = valor_total - anticipo`. It also carries the client's and branch's names, and `dias_en_taller` as today's day number minus the intake's. |
| RestModel.FalsyFiltersIgnored | backend/api.php:362-380 | A branch filter of 0 and a state filter of "" or "0" list the same orders as no filter, as PHP truthiness makes them. |
| RestModel.NewTransferRow | backend/api.php:713-727 | A new transfer carries the requested order, origin and destination. It is 'Pendiente', sent now, and well formed: no reception date and no receiver needed. |
| RestModel.UpdatedTransfer | backend/api.php:742-757 | After any transfer update, `fecha_recepcion` is now exactly when the state is 'Recibido', and null otherwise. State and receiver come from the request. Nothing else changes. |
| RestModel.UiWorkflowBounded | frontend/src/pages/Traslados.jsx:261-284 | Under the stricter workflow of the transfer page, a transfer takes at most two steps and stays well formed. A received transfer has its date and receiver. |
| RestModel.BackendReopensReceived | backend/api.php:742-757 | The backend accepts a step the page never offers: 'Recibido' back to 'Pendiente', which clears the reception date. |
| RestModel.BackendReceivesWithoutReceiver | backend/api.php:742-757 | The backend accepts 'Recibido' without `recibido_por`, which the transfer page demands (frontend/src/pages/Traslados.jsx:131-134). The transfer is stamped as received but names no receiver. |
| RestModel.BackendAcceptsSameBranch | frontend/src/pages/Traslados.jsx:353-354 | The backend's validation accepts a transfer whose destination is its origin, which the page filters out. |
| RestModel.Deactivated | backend/api.php:184 | The branch soft delete clears `activo` and changes nothing else. |
| RestApi.Ledger.CreateOrder | backend/api.php:394-452 | The request is either rejected with exactly the missing fields, leaving the tables unchanged, or one new order row is added under a fresh id. |
| RestApi.Ledger.UpdateOrder | backend/api.php:454-523 | Without an id the request is rejected. Otherwise only the addressed order becomes the updated order, and the other tables are unchanged. |
| RestApi.Ledger.CancelOrder | backend/api.php:527-535 | Without an id the request is rejected. Otherwise the order is cancelled, the row count is unchanged, and every other order is untouched. |
| RestApi.Ledger.GetOrder | backend/api.php:298-331 | Returns nothing when the order, its client or its branch is missing. Otherwise returns the joined rows, its parts, and its history sorted newest first as a permutation of its history rows. |
| RestApi.Ledger.CollectListed | backend/api.php:356-382 | The collected rows are exactly the orders that pass every supplied filter, each once. |
| RestApi.Ledger.ListOrders | backend/api.php:332-391 | Returns only matching orders, each once, at most 200, newest first, with `saldo_pendiente = valor_total - anticipo`. A matching order is left out only when the page is full, and it is no newer than the last row. |
| RestApi.Ledger.SumPartsOf | backend/api.php:641 | The sum equals the parts sum of the order, which is 0 when it has no parts. |
| RestApi.Ledger.FindPartOrder | backend/api.php:628-630 | Finds the part's order exactly when a row has that id. |
| RestApi.Ledger.AddPart | backend/api.php:563-617 | The request is either rejected with exactly the missing fields, or exactly one row is appended for the order. That order's parts cost becomes the sum of its parts and its total is recomputed. Every other order that was in sync stays in sync. |
| RestApi.Ledger.AppendPart | backend/api.php:575-584 | The insert appends one row under a fresh id and leaves every other order's sum unchanged. |
| RestApi.Ledger.RemovePart | backend/api.php:619-658 | Without an id the request is rejected. Otherwise the row is gone, its order's parts cost is the sum of the remaining parts (0 when none remain) and its total is recomputed. Other orders stay in sync. |
| RestApi.Ledger.DropPart | backend/api.php:633-635 | The delete removes exactly one row and leaves every other order's sum unchanged. |
| RestApi.Ledger.CreateTransfer | backend/api.php:704-734 | The request is either rejected with exactly the missing fields, or one pending transfer is added under a fresh id. |
| RestApi.Ledger.UpdateTransfer | backend/api.php:736-760 | Without an id the request is rejected. Otherwise the transfer's state, receiver and reception date are set as the update rule says, and no transition is refused. |
| RestApi.Ledger.DeactivateBranch | backend/api.php:178-187 | Without an id the request is rejected. Otherwise only the branch's `activo` flag changes. |
| ActionModel.OrdenValidationIff | backend/api/api.php:156-165 | An order is created exactly when the client's name and phone, the device type and the fault are all given and non-blank. |
| ActionModel.DetailsOf | backend/api/api.php:209-230 | Sent amounts and the estimated date are stored as sent. Every sent text column is stored sanitized. |
| ActionModel.NewCliente | backend/api/api.php:181-189 | The inserted client holds the sanitized name, phone, e-mail and address as sent. An omitted e-mail or address is the escaped empty string. |
| ActionModel.NewOrdenRow | backend/api/api.php:194-230 | The new row belongs to the given client under the generated number, entered now, undelivered with no recipient. Its device type is the sanitized one sent, and its descriptive and money columns are `DetailsOf` the form: sent text sanitized, sent amounts as sent. Creation and `updateOrden` bind the columns alike, so resubmitting the creation form as an update changes nothing. |
| ActionModel.NewOrdenDefaults | backend/api/api.php:209-230 | Omitted fields get their defaults: state 'Recibido', technician 'Intersecom', payment 'Efectivo', costs and deposit 0, no estimated date, and the escaped empty string for every other optional text column. The state is stored sanitized. |
| ActionModel.ReuseIffCleanPhone | backend/api/api.php:171-191 | The client lookup compares the phone as sent, but the inserted client holds the sanitized phone. A client created by one order is found again by the same phone exactly when sanitizing leaves that phone unchanged. |
| ActionModel.PaddedPhoneIsNotReused | backend/api/api.php:171-191 | A phone sent as " 555" is stored as "555". A second order with " 555" therefore inserts a second client. |
| ActionModel.Rewritten | backend/api/api.php:277-317 | `updateOrden` sets the descriptive and money columns to `DetailsOf` the form: sent text sanitized, sent amounts as sent, the defaults otherwise. It keeps the order's number, client, device type, state, intake date and delivery fields. |
| ActionModel.RewriteForgetsOldDetails | backend/api/api.php:277-317 | The rewritten columns depend only on the request, so repeating the same update changes nothing more. |
| ActionModel.StateChanged | backend/api/api.php:342-363 | A state change stores the state as sent. 'Entregado' sets the delivery date to now and, when a recipient is given, stores it sanitized. Any other state leaves both unchanged. Number, client, device, intake date and descriptive columns never change. |
| ActionModel.OrdenRowOf | backend/api/api.php:66-73 | A listing row carries the order's id and full row, its client's name, phone and e-mail, and `dias_en_taller` as today's day number minus the intake's. |
| ActionModel.Page | backend/api/api.php:79 | `LIMIT l OFFSET o` returns at most `l` rows: the ones at positions `o`, `o+1`, ... of the ordered result. The page is full whenever enough rows remain. |
| ActionModel.PagesConcatenate | backend/api/api.php:79 | Two consecutive pages together form one page of their combined length. |
| ActionModel.RowOnItsPage | backend/api/api.php:79 | Every row of the ordered result appears on the page of fixed size that its position falls in. |
| ActionApi.Taller.FindClientByPhone | backend/api/api.php:171-175 | Finds a client exactly when one has the phone as sent, and the client found has it. |
| ActionApi.Taller.ClientFor | backend/api/api.php:171-191 | If a client already has the phone, its id is reused and the client table is unchanged. Otherwise exactly one sanitized client is inserted under a fresh id and used. |
| ActionApi.Taller.CreateOrden | backend/api/api.php:150-260 | The request is either rejected with exactly the missing fields, with nothing inserted, or one order row is added under a fresh id for the found or inserted client. |
| ActionApi.Taller.UpdateOrden | backend/api/api.php:266-325 | Without an id the request is rejected. Otherwise only the addressed order's form columns are rewritten. State, client, number, device type and dates of every order are unchanged. |
| ActionApi.Taller.UpdateEstado | backend/api/api.php:330-369 | The request is rejected unless both an id and a truthy state are given. Otherwise only the addressed order changes, by the state change rule. |
| ActionApi.Taller.DeleteOrden | backend/api/api.php:374-394 | Without an id the request is rejected. Otherwise the row is physically removed and every other order is untouched. |
| ActionApi.Taller.GetOrden | backend/api/api.php:103-145 | 400 without an id, 404 when no order joined with its client has the id. Otherwise returns that order, its client, and its history sorted newest first as a permutation of its history rows. |
| ActionApi.Taller.CollectListable | backend/api/api.php:66-77 | The collected rows are exactly the orders with an existing client that match a truthy state filter, each once. |
| ActionApi.Taller.GetOrdenes | backend/api/api.php:57-97 | The ordered rows are exactly the listable orders, each once, sorted by intake date newest first. The answer is their page at `offset` (default 0) of `limit` rows (default 100). A negative limit or offset is refused. |

## Left out

- HTTP routing, methods and status plumbing are not modelled: headers, CORS, 405 replies, `sendJSON`, `jsonResponse`, `handleError`. Nor is the PDO connection setup. These are I/O. Rejections are modelled as reply values.
- The dashboard and statistics queries are not modelled. They read aggregates and views defined in the database schema, outside the PHP code.
- The client and branch CRUD of `backend/api.php` is not modelled, apart from the branch soft delete. The client table of `backend/api.php` is read-only here. The transfer listing is not modelled, because it reads a view defined in the database schema, outside the PHP code.
- The clients listing of the action backend (`getClientes`) is not modelled. It is a plain `SELECT ... ORDER BY nombre`.
- `numero_orden` is generated by the database and is a parameter. `precio_total` is also written by the database. It is taken to be `cantidad * precio_unitario`, the amount the detail page shows (frontend/src/pages/DetalleOrden.jsx:660).
- Column defaults are assumed, because they are defined in the database schema, outside the PHP code:
  - a new order of `backend/api.php` starts in 'Recibido', received now (`fecha_recepcion`), with parts and labour cost 0 and total equal to the estimate;
  - a new transfer starts in 'Pendiente' and is sent now;
  - `fecha_ingreso` of the action backend is the insertion time.
- Uniqueness of `numero_orden` is not modelled. The number is a parameter, so two orders may carry the same one.
- Foreign keys are not modelled. Part, transfer and order rows may name ids that do not exist. An UPDATE or DELETE on an unknown id changes nothing and still reports success, as the code does.
- Neither backend writes the state history table (`historial_estados`). It is a read-only input here.
- Transaction rollback: each handler is one atomic step. The 500 replies of failed statements are not modelled, except the refused negative `LIMIT`/`OFFSET`.
- PHP type juggling of request values is reduced to typed fields:
  - ids are integers with 0 for absent;
  - money is integer centavos;
  - text is a string;
  - an array where a string is expected is not modelled.
- `Validation.IsMissing`: PHP 7's `trim` of an array returns null, so an array-valued field does not count as blank. PHP 8 throws a TypeError instead, which is not modelled.
- MySQL's collation rules are not modelled: case and trailing-space insensitivity. The `telefono = ?` lookup and the `estado = ?` filters of both listings compare by exact string equality.
- `strip_tags` and `htmlspecialchars` are the function parameter `escape`, not modelled in detail.
- Dates compare by day (`ts / 86400`), in one time zone. `DATEDIFF` is the difference of day numbers.
- The frontend is not modelled. The transfer workflow in `RestModel.UiStep` is the page's stricter rule, stated so that it can be compared with what the backend accepts.
- `RestApi.Ledger.UpdateOrder`: `fecha_entrega` is overwritten on every save as 'Entregado', not only the first time, as the code does. See `RestModel.RedeliveryMovesStamp`.
- `RestApi.Ledger.UpdateTransfer`: no transition, `destino ≠ origen` or terminal-state rule is enforced, because the backend enforces none.

=== FILE: action_api.dfy ===
/** The action backend (`backend/api/api.php`) as a class over its client and order tables. Each action is one
    atomic step, `now` and `today` are the database clock, `numero` is the order number the database generates,
    and `escape` stands for `strip_tags` followed by `htmlspecialchars`. Neither backend writes the state
    history, so it is a read-only input here. */
module ActionApi {
  import opened Common
  import opened Validation
  import opened Sorting
  import opened ActionModel

  class Taller {
    var clients: map<int, Cliente>
    var orders: map<int, Orden>
    var nextClientId: int
    var nextOrderId: int
    const history: seq<HistoryEntry>
    const escape: string -> string

    /** Auto-increment ids: every row id is positive and below the next one handed out. */
    ghost predicate Valid()
      reads this
    {
      && 0 < nextClientId && 0 < nextOrderId
      && (forall id :: id in clients ==> 0 < id < nextClientId)
      && (forall id :: id in orders ==> 0 < id < nextOrderId)
    }

    constructor (escape: string -> string, history: seq<HistoryEntry>)
      ensures Valid()
      ensures clients == map[] && orders == map[] && nextClientId == 1 && nextOrderId == 1
      ensures this.escape == escape && this.history == history
    {
      clients := map[];
      orders := map[];
      nextClientId := 1;
      nextOrderId := 1;
      this.escape := escape;
      this.history := history;
    }

    // ------------------------------------------------------------ reads

    /** `SELECT id FROM clientes WHERE telefono = :telefono LIMIT 1`. */
    method FindClientByPhone(phone: string) returns (found: Option<int>)
      requires Valid()
      ensures found.None? <==> !HasPhone(clients, phone)
      ensures found.Some? ==> found.value in clients && clients[found.value].telefono == phone
    {
      for id := 1 to nextClientId
        invariant forall k :: k in clients && k < id ==> clients[k].telefono != phone
      {
        if id in clients && clients[id].telefono == phone {
          return Some(id);
        }
      }
      return None;
    }

    /** `getOrden`: 400 without an id, 404 when no order (joined with its client) has it, otherwise the order, its
        client and its history, newest change first. */
    method GetOrden(id: int) returns (result: Outcome<OrdenDetail>)
      ensures !IdGiven(id) ==> result == Err(IdRequired)
      ensures IdGiven(id) && !(id in orders && orders[id].clienteId in clients) ==> result == Err(NotFound)
      ensures result.Ok? <==> IdGiven(id) && id in orders && orders[id].clienteId in clients
      ensures result.Ok? ==>
        var d := result.value;
        d.id == id && d.orden == orders[id] && d.cliente == clients[orders[id].clienteId] &&
        SortedDesc(d.history, EntryDate) && multiset(d.history) == multiset(HistoryOf(history, id))
    {
      if !IdGiven(id) {
        return Err(IdRequired);
      }
      if !(id in orders && orders[id].clienteId in clients) {
        return Err(NotFound);
      }
      var hist := SortDesc(HistoryOf(history, id), EntryDate);
      result := Ok(OrdenDetail(id, orders[id], clients[orders[id].clienteId], hist));
    }

    /** The `WHERE` clause of `getOrdenes`: one row per listable order, in id order. */
    method CollectListable(estado: Option<string>, today: int) returns (found: seq<OrdenRow>)
      requires Valid()
      ensures forall r :: r in found ==>
        Listable(orders, clients, r.id, estado) && r == OrdenRowOf(orders, clients, r.id, today)
      ensures forall id :: Listable(orders, clients, id, estado) ==> OrdenRowOf(orders, clients, id, today) in found
      ensures Distinct(found)
    {
      found := [];
      for id := 1 to nextOrderId
        invariant forall r :: r in found ==>
          Listable(orders, clients, r.id, estado) && r == OrdenRowOf(orders, clients, r.id, today) && r.id < id
        invariant forall k :: 0 < k < id && Listable(orders, clients, k, estado) ==>
          OrdenRowOf(orders, clients, k, today) in found
        invariant Distinct(found)
      {
        if Listable(orders, clients, id, estado) {
          found := found + [OrdenRowOf(orders, clients, id, today)];
        }
      }
    }

    /** `getOrdenes`: the listable orders newest intake first (`ordered`), and of those the page starting at
        `offset` (default 0) of at most `limit` rows (default 100). A negative limit or offset is a query the
        database refuses. */
    method GetOrdenes(estado: Option<string>, limit: Option<int>, offset: Option<int>, today: int)
      returns (result: Outcome<seq<OrdenRow>>, ghost ordered: seq<OrdenRow>)
      requires Valid()
      ensures result.Err? <==> limit.GetOr(DefaultLimit) < 0 || offset.GetOr(DefaultOffset) < 0
      ensures result.Err? ==> result.failure == QueryFailed
      ensures forall r :: r in ordered ==>
        Listable(orders, clients, r.id, estado) && r == OrdenRowOf(orders, clients, r.id, today)
      ensures forall id :: Listable(orders, clients, id, estado) ==> OrdenRowOf(orders, clients, id, today) in ordered
      ensures Distinct(ordered) && SortedDesc(ordered, IngresoDate)
      ensures result.Ok? ==>
        result.value == Page(ordered, offset.GetOr(DefaultOffset), limit.GetOr(DefaultLimit))
    {
      var found := CollectListable(estado, today);
      var sorted := SortDesc(found, IngresoDate);
      PermutationKeepsDistinct(found, sorted);
      assert forall r :: r in sorted ==> r in multiset(found);
      forall id | Listable(orders, clients, id, estado) ensures OrdenRowOf(orders, clients, id, today) in sorted {
        assert OrdenRowOf(orders, clients, id, today) in multiset(found);
      }
      ordered := sorted;
      var l := limit.GetOr(DefaultLimit);
      var o := offset.GetOr(DefaultOffset);
      if l < 0 || o < 0 {
        return Err(QueryFailed), ordered;
      }
      result := Ok(Page(sorted, o, l));
    }

    // ------------------------------------------------------------ writes

    /** `createOrden`: 400 with the missing fields, or the client found by phone (inserted when none has it) and
        one new order row for that client. */
    method CreateOrden(r: NewOrden, numero: string, now: int) returns (reply: Reply)
      requires Valid()
      modifies this
      ensures Valid()
      ensures reply.CreatedOrder? <==>
        !Blank(r.clienteNombre) && !Blank(r.clienteTelefono) && !Blank(r.tipoEquipo) && !Blank(r.form.falla)
      ensures !reply.CreatedOrder? ==>
        reply == Rejected(FieldsMissing(MissingFields(OrdenInput(r), OrdenRequired))) &&
        clients == old(clients) && orders == old(orders) &&
        nextClientId == old(nextClientId) && nextOrderId == old(nextOrderId)
      ensures reply.CreatedOrder? ==>
        && reply.id == old(nextOrderId) && reply.numero == numero
        && nextOrderId == old(nextOrderId) + 1 && reply.id in orders
        && orders == old(orders)[reply.id := NewOrdenRow(r, orders[reply.id].clienteId, numero, now, escape)]
      ensures reply.CreatedOrder? && HasPhone(old(clients), r.clienteTelefono.value) ==>
        var cid := orders[reply.id].clienteId;
        clients == old(clients) && nextClientId == old(nextClientId) &&
        cid in clients && clients[cid].telefono == r.clienteTelefono.value
      ensures reply.CreatedOrder? && !HasPhone(old(clients), r.clienteTelefono.value) ==>
        var cid := orders[reply.id].clienteId;
        cid == old(nextClientId) && nextClientId == old(nextClientId) + 1 &&
        clients == old(clients)[cid := NewCliente(r, escape)]
    {
      var missing := ValidateRequired(OrdenInput(r), OrdenRequired);
      OrdenValidationIff(r);
      if missing != [] {
        return Rejected(FieldsMissing(missing));
      }
      var cid := ClientFor(r);
      var oid := nextOrderId;
      orders := orders[oid := NewOrdenRow(r, cid, numero, now, escape)];
      nextOrderId := nextOrderId + 1;
      reply := CreatedOrder(oid, numero);
    }

    /** Step 1 of `createOrden`: the id of a client with the phone as sent, or of a client inserted for it. */
    method ClientFor(r: NewOrden) returns (cid: int)
      requires Valid() && r.clienteTelefono.Some?
      modifies this`clients, this`nextClientId
      ensures Valid() && cid in clients
      ensures HasPhone(old(clients), r.clienteTelefono.value) ==>
        clients == old(clients) && nextClientId == old(nextClientId) && clients[cid].telefono == r.clienteTelefono.value
      ensures !HasPhone(old(clients), r.clienteTelefono.value) ==>
        cid == old(nextClientId) && nextClientId == old(nextClientId) + 1 &&
        clients == old(clients)[cid := NewCliente(r, escape)]
    {
      var found := FindClientByPhone(r.clienteTelefono.value);
      if found.Some? {
        cid := found.value;
      } else {
        cid := nextClientId;
        clients := clients[cid := NewCliente(r, escape)];
        nextClientId := nextClientId + 1;
      }
    }

    /** `updateOrden`: 400 without an id; otherwise the form's columns of that order are rewritten (an unknown id
        matches no row). The state, client, number, device type and dates are never touched. */
    method UpdateOrden(id: int, f: OrdenForm) returns (reply: Reply)
      requires Valid()
      modifies this`orders
      ensures Valid()
      ensures !IdGiven(id) ==> reply == Rejected(IdRequired) && orders == old(orders)
      ensures IdGiven(id) ==>
        reply == Done &&
        orders == (if id in old(orders) then old(orders)[id := Rewritten(old(orders)[id], f, escape)] else old(orders))
      ensures orders.Keys == old(orders).Keys
      ensures forall k :: k in orders ==> SameIdentity(old(orders)[k], orders[k])
    {
      if !IdGiven(id) {
        return Rejected(IdRequired);
      }
      if id in orders {
        orders := orders[id := Rewritten(orders[id], f, escape)];
      }
      reply := Done;
    }

    /** `updateEstado`: 400 unless both an id and a truthy state are given; otherwise the state is stored, and a
        change to 'Entregado' also stamps the delivery date and, when given, the recipient. */
    method UpdateEstado(id: int, estado: Option<string>, entregadoA: Option<string>, now: int) returns (reply: Reply)
      requires Valid()
      modifies this`orders
      ensures Valid()
      ensures !(IdGiven(id) && estado.Some? && Truthy(estado.value)) ==>
        reply == Rejected(IdAndStateRequired) && orders == old(orders)
      ensures IdGiven(id) && estado.Some? && Truthy(estado.value) ==>
        reply == Done &&
        orders == (if id in old(orders)
                   then old(orders)[id := StateChanged(old(orders)[id], estado.value, entregadoA, now, escape)]
                   else old(orders))
      ensures orders.Keys == old(orders).Keys
      ensures forall k :: k in orders && k != id ==> orders[k] == old(orders)[k]
    {
      if !(IdGiven(id) && estado.Some? && Truthy(estado.value)) {
        return Rejected(IdAndStateRequired);
      }
      if id in orders {
        orders := orders[id := StateChanged(orders[id], estado.value, entregadoA, now, escape)];
      }
      reply := Done;
    }

    /** `deleteOrden`: 400 without an id; otherwise the row is removed outright (an unknown id removes nothing). */
    method DeleteOrden(id: int) returns (reply: Reply)
      requires Valid()
      modifies this`orders
      ensures Valid()
      ensures !IdGiven(id) ==> reply == Rejected(IdRequired) && orders == old(orders)
      ensures IdGiven(id) ==> reply == Done && id !in orders && orders == old(orders) - {id}
      ensures forall k :: k in orders ==> k in old(orders) && orders[k] == old(orders)[k]
    {
      if !IdGiven(id) {
        return Rejected(IdRequired);
      }
      orders := orders - {id};
      reply := Done;
    }
  }
}

=== FILE: action_model.dfy ===
/** The rows, requests and pure rules of the action backend (`backend/api/api.php`): orders keyed by id with the
    client they belong to, a client table the order creation fills by phone number, and paged listings. */
module ActionModel {
  import opened Common
  import opened Text
  import opened Input
  import opened Validation
  import opened Sanitize

  const DefaultTecnico := "Intersecom"
  const DefaultTipoPago := "Efectivo"
  const DefaultLimit := 100
  const DefaultOffset := 0

  // ---------------------------------------------------------------- rows

  /** A `clientes` row as this backend writes it: every column passes through `sanitizeInput`. */
  datatype Cliente = Cliente(nombre: string, telefono: string, email: string, direccion: string)

  /** The columns `updateOrden` rewrites; creation writes them too. Money is counted in centavos, dates in days. */
  datatype Details = Details(
    marca: string, modelo: string, color: string, numeroSerie: string, datosAcceso: string, accesorios: string,
    falla: string, observaciones: string, diagnostico: string, trabajoRealizado: string, repuestosUsados: string,
    tecnico: string, fechaEstimadaSalida: Option<int>,
    costoEstimado: int, costoTotal: int, anticipo: int,
    tipoPago: string, lugarCotizacion: string)

  /** An `ordenes` row. `numero` is generated by the database, `fechaIngreso` is the insertion time. */
  datatype Orden = Orden(numero: string, clienteId: int, tipoEquipo: string, estado: string, details: Details,
                         fechaIngreso: int, fechaEntrega: Option<int>, entregadoA: Option<string>)

  // ---------------------------------------------------------------- requests and replies

  /** The descriptive and money fields of a creation or update body; `None` is an absent key (or JSON null). */
  datatype OrdenForm = OrdenForm(
    marca: Option<string>, modelo: Option<string>, color: Option<string>, numeroSerie: Option<string>,
    datosAcceso: Option<string>, accesorios: Option<string>, falla: Option<string>, observaciones: Option<string>,
    diagnostico: Option<string>, trabajoRealizado: Option<string>, repuestosUsados: Option<string>,
    tecnico: Option<string>, fechaEstimadaSalida: Option<int>,
    costoEstimado: Option<int>, costoTotal: Option<int>, anticipo: Option<int>,
    tipoPago: Option<string>, lugarCotizacion: Option<string>)

  /** The body of `createOrden`: the client's data, the device type, an optional initial state and the form. */
  datatype NewOrden = NewOrden(clienteNombre: Option<string>, clienteTelefono: Option<string>,
                               clienteEmail: Option<string>, clienteDireccion: Option<string>,
                               tipoEquipo: Option<string>, estado: Option<string>, form: OrdenForm)

  /** A `getOrdenes` row: the order joined with its client, and the whole days since intake. */
  datatype OrdenRow = OrdenRow(id: int, orden: Orden, clienteNombre: string, clienteTelefono: string,
                               clienteEmail: string, diasEnTaller: int)

  /** `getOrden`: the order, its client, and its state history. */
  datatype OrdenDetail = OrdenDetail(id: int, orden: Orden, cliente: Cliente, history: seq<HistoryEntry>)

  /** A read that either answers or is turned away. */
  datatype Outcome<T> = Ok(value: T) | Err(failure: Failure)

  // ---------------------------------------------------------------- creation

  const OrdenRequired := ["cliente_nombre", "cliente_telefono", "tipo_equipo", "falla_reportada"]

  /** The fields of a creation body that `validateRequired` inspects. */
  function OrdenInput(r: NewOrden): Data {
    PutText(PutText(PutText(PutText(map[], "falla_reportada", r.form.falla), "tipo_equipo", r.tipoEquipo),
                    "cliente_telefono", r.clienteTelefono), "cliente_nombre", r.clienteNombre)
  }

  /** An order is created exactly when the client's name and phone, the device type and the fault are all given
      and non-blank. */
  lemma OrdenValidationIff(r: NewOrden)
    ensures MissingFields(OrdenInput(r), OrdenRequired) == [] <==>
            !Blank(r.clienteNombre) && !Blank(r.clienteTelefono) && !Blank(r.tipoEquipo) && !Blank(r.form.falla)
  {
    var d := OrdenInput(r);
    if !Blank(r.clienteNombre) && !Blank(r.clienteTelefono) && !Blank(r.tipoEquipo) && !Blank(r.form.falla) {
      forall f | f in OrdenRequired ensures !IsMissing(d, f) {
        assert f == "cliente_nombre" || f == "cliente_telefono" || f == "tipo_equipo" || f == "falla_reportada";
      }
      MissingFieldsEmptyIff(d, OrdenRequired);
    } else {
      var f := if Blank(r.clienteNombre) then "cliente_nombre" else if Blank(r.clienteTelefono) then "cliente_telefono"
               else if Blank(r.tipoEquipo) then "tipo_equipo" else "falla_reportada";
      assert IsMissing(d, f);
      assert f in OrdenRequired;
      MissingFieldsMembership(d, OrdenRequired, f);
    }
  }

  /** `sanitizeInput($input[key] ?? default)`; PHP's `trim(null)` is the empty string. */
  function Clean(v: Option<string>, default: string, escape: string -> string): string {
    SanitizeText(v.GetOr(default), escape)
  }

  /** The values `createOrden` and `updateOrden` bind for the descriptive and money columns: amounts and the
      estimated date as sent, every sent text column sanitized. The defaults for omitted fields are `NewOrdenDefaults`. */
  function DetailsOf(f: OrdenForm, escape: string -> string): (d: Details)
    ensures f.costoEstimado.Some? ==> d.costoEstimado == f.costoEstimado.value
    ensures f.costoTotal.Some? ==> d.costoTotal == f.costoTotal.value
    ensures f.anticipo.Some? ==> d.anticipo == f.anticipo.value
    ensures d.fechaEstimadaSalida == f.fechaEstimadaSalida
    ensures f.falla.Some? ==> d.falla == SanitizeText(f.falla.value, escape)
    ensures f.tecnico.Some? ==> d.tecnico == SanitizeText(f.tecnico.value, escape)
    ensures f.tipoPago.Some? ==> d.tipoPago == SanitizeText(f.tipoPago.value, escape)
    ensures f.marca.Some? ==> d.marca == SanitizeText(f.marca.value, escape)
    ensures f.modelo.Some? ==> d.modelo == SanitizeText(f.modelo.value, escape)
    ensures f.color.Some? ==> d.color == SanitizeText(f.color.value, escape)
    ensures f.numeroSerie.Some? ==> d.numeroSerie == SanitizeText(f.numeroSerie.value, escape)
    ensures f.datosAcceso.Some? ==> d.datosAcceso == SanitizeText(f.datosAcceso.value, escape)
    ensures f.accesorios.Some? ==> d.accesorios == SanitizeText(f.accesorios.value, escape)
    ensures f.observaciones.Some? ==> d.observaciones == SanitizeText(f.observaciones.value, escape)
    ensures f.diagnostico.Some? ==> d.diagnostico == SanitizeText(f.diagnostico.value, escape)
    ensures f.trabajoRealizado.Some? ==> d.trabajoRealizado == SanitizeText(f.trabajoRealizado.value, escape)
    ensures f.repuestosUsados.Some? ==> d.repuestosUsados == SanitizeText(f.repuestosUsados.value, escape)
    ensures f.lugarCotizacion.Some? ==> d.lugarCotizacion == SanitizeText(f.lugarCotizacion.value, escape)
  {
    Details(Clean(f.marca, "", escape), Clean(f.modelo, "", escape), Clean(f.color, "", escape),
            Clean(f.numeroSerie, "", escape), Clean(f.datosAcceso, "", escape), Clean(f.accesorios, "", escape),
            Clean(f.falla, "", escape), Clean(f.observaciones, "", escape), Clean(f.diagnostico, "", escape),
            Clean(f.trabajoRealizado, "", escape), Clean(f.repuestosUsados, "", escape),
            Clean(f.tecnico, DefaultTecnico, escape), f.fechaEstimadaSalida,
            f.costoEstimado.GetOr(0), f.costoTotal.GetOr(0), f.anticipo.GetOr(0),
            Clean(f.tipoPago, DefaultTipoPago, escape), Clean(f.lugarCotizacion, "", escape))
  }

  /** The client row inserted when no client has the given phone: every column sanitized, an omitted e-mail or
      address stored as the escaped empty string. */
  function NewCliente(r: NewOrden, escape: string -> string): (c: Cliente)
    ensures r.clienteTelefono.Some? ==> c.telefono == SanitizeText(r.clienteTelefono.value, escape)
    ensures r.clienteNombre.Some? ==> c.nombre == SanitizeText(r.clienteNombre.value, escape)
    ensures r.clienteEmail.Some? ==> c.email == SanitizeText(r.clienteEmail.value, escape)
    ensures r.clienteDireccion.Some? ==> c.direccion == SanitizeText(r.clienteDireccion.value, escape)
    ensures r.clienteEmail.None? ==> c.email == escape("")
    ensures r.clienteDireccion.None? ==> c.direccion == escape("")
  {
    TrimKeepsTrimmed("");
    Cliente(Clean(r.clienteNombre, "", escape), Clean(r.clienteTelefono, "", escape),
            Clean(r.clienteEmail, "", escape), Clean(r.clienteDireccion, "", escape))
  }

  /** The order row inserted by `createOrden`; delivery date and recipient start empty. Creation and `updateOrden`
      bind the same descriptive and money columns the same way, so sending the creation form again as an update
      leaves the new row as it is. */
  function NewOrdenRow(r: NewOrden, clienteId: int, numero: string, now: int, escape: string -> string): (o: Orden)
    ensures o.clienteId == clienteId && o.numero == numero && o.fechaIngreso == now
    ensures o.fechaEntrega.None? && o.entregadoA.None?
    ensures o.details == DetailsOf(r.form, escape)
    ensures r.tipoEquipo.Some? ==> o.tipoEquipo == SanitizeText(r.tipoEquipo.value, escape)
    ensures Rewritten(o, r.form, escape) == o
  {
    Orden(numero, clienteId, Clean(r.tipoEquipo, "", escape), Clean(r.estado, Intake, escape),
          DetailsOf(r.form, escape), now, None, None)
  }

  /** Omitted fields take their defaults: state 'Recibido', technician 'Intersecom', payment 'Efectivo', money 0,
      every other text column the escaped empty string; the stored state, whether given or defaulted, is the sanitized one. */
  lemma NewOrdenDefaults(r: NewOrden, clienteId: int, numero: string, now: int, escape: string -> string)
    ensures var o := NewOrdenRow(r, clienteId, numero, now, escape);
      && (r.estado.None? ==> o.estado == escape(Intake))
      && (r.estado.Some? ==> o.estado == SanitizeText(r.estado.value, escape))
      && (r.form.tecnico.None? ==> o.details.tecnico == escape(DefaultTecnico))
      && (r.form.tipoPago.None? ==> o.details.tipoPago == escape(DefaultTipoPago))
      && (r.form.costoEstimado.None? ==> o.details.costoEstimado == 0)
      && (r.form.costoTotal.None? ==> o.details.costoTotal == 0)
      && (r.form.anticipo.None? ==> o.details.anticipo == 0)
      && (r.form.marca.None? ==> o.details.marca == escape(""))
      && (r.form.modelo.None? ==> o.details.modelo == escape(""))
      && (r.form.color.None? ==> o.details.color == escape(""))
      && (r.form.numeroSerie.None? ==> o.details.numeroSerie == escape(""))
      && (r.form.datosAcceso.None? ==> o.details.datosAcceso == escape(""))
      && (r.form.accesorios.None? ==> o.details.accesorios == escape(""))
      && (r.form.observaciones.None? ==> o.details.observaciones == escape(""))
      && (r.form.diagnostico.None? ==> o.details.diagnostico == escape(""))
      && (r.form.trabajoRealizado.None? ==> o.details.trabajoRealizado == escape(""))
      && (r.form.repuestosUsados.None? ==> o.details.repuestosUsados == escape(""))
      && (r.form.lugarCotizacion.None? ==> o.details.lugarCotizacion == escape(""))
      && (r.form.fechaEstimadaSalida.None? ==> o.details.fechaEstimadaSalida.None?)
      && o.clienteId == clienteId && o.numero == numero && o.fechaIngreso == now
      && o.fechaEntrega.None? && o.entregadoA.None?
  {
    TrimKeepsTrimmed(Intake);
    TrimKeepsTrimmed(DefaultTecnico);
    TrimKeepsTrimmed(DefaultTipoPago);
    TrimKeepsTrimmed("");
  }

  // ---------------------------------------------------------------- the client lookup

  /** Some client row carries exactly this phone (`SELECT id FROM clientes WHERE telefono = ?`). */
  predicate HasPhone(clients: map<int, Cliente>, phone: string) {
    exists id :: id in clients && clients[id].telefono == phone
  }

  /** The lookup compares the phone as sent, while the inserted row holds the sanitized phone. A client created
      by one order is therefore found again by a second order with the same phone exactly when sanitizing leaves
      that phone as it was. */
  lemma ReuseIffCleanPhone(r: NewOrden, cid: int, escape: string -> string)
    requires r.clienteTelefono.Some?
    ensures HasPhone(map[cid := NewCliente(r, escape)], r.clienteTelefono.value) <==>
            SanitizeText(r.clienteTelefono.value, escape) == r.clienteTelefono.value
  {
    var clients := map[cid := NewCliente(r, escape)];
    if SanitizeText(r.clienteTelefono.value, escape) == r.clienteTelefono.value {
      assert clients[cid].telefono == r.clienteTelefono.value;
    }
  }

  /** A phone sent with a leading blank: the row created for it does not match the same phone next time, so a
      second order with that phone inserts a second client. */
  lemma PaddedPhoneIsNotReused()
    ensures var r := NewOrden(Some("Ana"), Some(" 555"), None, None, Some("Laptop"), None,
                              OrdenForm(None, None, None, None, None, None, Some("No enciende"), None, None, None,
                                        None, None, None, None, None, None, None, None));
            !HasPhone(map[1 := NewCliente(r, s => s)], " 555")
  {
    var r := NewOrden(Some("Ana"), Some(" 555"), None, None, Some("Laptop"), None,
                      OrdenForm(None, None, None, None, None, None, Some("No enciende"), None, None, None,
                                None, None, None, None, None, None, None, None));
    TrimKeepsTrimmed("555");
    assert TrimLeft(" 555") == TrimLeft("555");
    assert NewCliente(r, s => s).telefono == "555";
    ReuseIffCleanPhone(r, 1, s => s);
  }

  // ---------------------------------------------------------------- updates

  /** The parts of an order that `updateOrden` never writes. */
  predicate SameIdentity(a: Orden, b: Orden) {
    a.numero == b.numero && a.clienteId == b.clienteId && a.tipoEquipo == b.tipoEquipo && a.estado == b.estado
    && a.fechaIngreso == b.fechaIngreso && a.fechaEntrega == b.fechaEntrega && a.entregadoA == b.entregadoA
  }

  /** `updateOrden` on an existing row: the descriptive and money columns become the ones the form binds, nothing
      else changes. */
  function Rewritten(o: Orden, f: OrdenForm, escape: string -> string): (r: Orden)
    ensures SameIdentity(o, r)
    ensures r.details == DetailsOf(f, escape)
  {
    o.(details := DetailsOf(f, escape))
  }

  /** Rewriting with the same form twice is the same as once, and the result does not depend on the old
      descriptive columns at all. */
  lemma RewriteForgetsOldDetails(a: Orden, b: Orden, f: OrdenForm, escape: string -> string)
    requires SameIdentity(a, b)
    ensures Rewritten(a, f, escape) == Rewritten(b, f, escape)
    ensures Rewritten(Rewritten(a, f, escape), f, escape) == Rewritten(a, f, escape)
  {
  }

  /** `updateEstado` on an existing row. The new state is stored as sent; the number, client, device, intake date
      and descriptive columns never change. Only a change to 'Entregado' moves the delivery date (to now) or the
      recipient (to the sanitized one given, when one is given); any other state leaves both alone. */
  function StateChanged(o: Orden, estado: string, entregadoA: Option<string>, now: int,
                        escape: string -> string): (r: Orden)
    ensures r.estado == estado && r.details == o.details
    ensures r.numero == o.numero && r.clienteId == o.clienteId && r.tipoEquipo == o.tipoEquipo
    ensures r.fechaIngreso == o.fechaIngreso
    ensures estado == Delivered ==> r.fechaEntrega == Some(now)
    ensures estado == Delivered && entregadoA.Some? ==> r.entregadoA == Some(SanitizeText(entregadoA.value, escape))
    ensures estado == Delivered && entregadoA.None? ==> r.entregadoA == o.entregadoA
    ensures estado != Delivered ==> r.fechaEntrega == o.fechaEntrega && r.entregadoA == o.entregadoA
  {
    if estado == Delivered then
      o.(estado := estado, fechaEntrega := Some(now),
         entregadoA := if entregadoA.Some? then Some(SanitizeText(entregadoA.value, escape)) else o.entregadoA)
    else o.(estado := estado)
  }

  // ---------------------------------------------------------------- listing

  /** The `INNER JOIN` keeps orders whose client exists; a truthy `estado` parameter filters on equality. */
  predicate Listable(orders: map<int, Orden>, clients: map<int, Cliente>, id: int, estado: Option<string>) {
    id in orders && orders[id].clienteId in clients
    && (estado.Some? && Truthy(estado.value) ==> orders[id].estado == estado.value)
  }

  function OrdenRowOf(orders: map<int, Orden>, clients: map<int, Cliente>, id: int, today: int): (r: OrdenRow)
    requires id in orders && orders[id].clienteId in clients
    ensures r.id == id && r.orden == orders[id]
    ensures r.clienteNombre == clients[orders[id].clienteId].nombre
    ensures r.clienteTelefono == clients[orders[id].clienteId].telefono
    ensures r.clienteEmail == clients[orders[id].clienteId].email
    ensures r.diasEnTaller == today - DayOf(orders[id].fechaIngreso)
  {
    var o := orders[id];
    var c := clients[o.clienteId];
    OrdenRow(id, o, c.nombre, c.telefono, c.email, today - DayOf(o.fechaIngreso))
  }

  function IngresoDate(r: OrdenRow): int {
    r.orden.fechaIngreso
  }

  /** `LIMIT limit OFFSET offset` over an ordered result. */
  function Page<T>(s: seq<T>, offset: nat, limit: nat): (r: seq<T>)
    ensures |r| <= limit
    ensures forall i :: 0 <= i < |r| ==> offset + i < |s| && r[i] == s[offset + i]
    ensures offset + limit <= |s| ==> |r| == limit
    ensures offset < |s| && |s| < offset + limit ==> |r| == |s| - offset
  {
    if offset >= |s| then []
    else if offset + limit <= |s| then s[offset..offset + limit]
    else s[offset..]
  }

  /** Two consecutive pages are one page of their combined length. */
  lemma PagesConcatenate<T>(s: seq<T>, offset: nat, a: nat, b: nat)
    ensures Page(s, offset, a) + Page(s, offset + a, b) == Page(s, offset, a + b)
  {
    var left := Page(s, offset, a);
    var right := Page(s, offset + a, b);
    var whole := Page(s, offset, a + b);
    assert |left| + |right| == |whole|;
    forall i | 0 <= i < |whole| ensures (left + right)[i] == whole[i] {
      if i >= |left| {
        assert right[i - |left|] == s[offset + a + (i - |left|)];
      }
    }
  }

  /** Every row of the ordered result lies on exactly one page of a fixed size: the one its position falls in. */
  lemma RowOnItsPage<T>(s: seq<T>, k: nat, limit: nat)
    requires k < |s| && 0 < limit
    ensures var p := Page(s, (k / limit) * limit, limit);
      k - (k / limit) * limit < |p| && p[k - (k / limit) * limit] == s[k]
  {
    var offset := (k / limit) * limit;
    assert offset <= k < offset + limit;
    var p := Page(s, offset, limit);
    if offset + limit > |s| {
      assert |p| == |s| - offset;
    }
  }
}

=== FILE: common.dfy ===
/** Vocabulary both backends share: optional values (a PHP `null` or a missing key), ids, the order states they
    both name, the state history they both read, and the replies they give. */
module Common {

  datatype Option<+T> = None | Some(value: T) {
    /** PHP's `$x ?? $default`. */
    function GetOr(default: T): T {
      match this
      case Some(v) => v
      case None => default
    }
  }

  /** PHP treats an id as absent when `!$id` holds; ids are integers here, so 0 stands for "not given". */
  predicate IdGiven(id: int) {
    id != 0
  }

  /** PHP truthiness of a query-string value: "" and "0" are falsy. */
  predicate Truthy(s: string) {
    s != "" && s != "0"
  }

  const Delivered := "Entregado"
  const Intake := "Recibido"
  const SecondsPerDay := 86400

  /** MySQL's `DATE(ts)`: the day number of a timestamp (floor division, also for times before the epoch). */
  function DayOf(ts: int): int {
    ts / SecondsPerDay
  }

  /** A row of `historial_estados` (neither backend writes it; it is only read here). */
  datatype HistoryEntry = HistoryEntry(ordenId: int, anterior: Option<string>, nuevo: string, fechaCambio: int)

  function EntryDate(h: HistoryEntry): int {
    h.fechaCambio
  }

  /** `SELECT * FROM historial_estados WHERE id_orden = ?`, before ordering. */
  function HistoryOf(h: seq<HistoryEntry>, oid: int): (r: seq<HistoryEntry>)
    ensures forall e :: e in r <==> e in h && e.ordenId == oid
  {
    if h == [] then []
    else
      var last := h[|h| - 1];
      HistoryOf(h[..|h| - 1], oid) + (if last.ordenId == oid then [last] else [])
  }

  /** Why a request was turned away: 400 with the missing fields, 400 without an id (or, in the action backend,
      without an id and a state), 404, or a query the database refuses (a negative `LIMIT` or `OFFSET`, 500). */
  datatype Failure = FieldsMissing(fields: seq<string>) | IdRequired | IdAndStateRequired | NotFound | QueryFailed

  datatype Reply = Done | Created(id: int) | CreatedOrder(id: int, numero: string) | Rejected(failure: Failure)
}

=== FILE: input.dfy ===
/** A decoded JSON request body as PHP sees it after `json_decode($body, true)`. */
module Input {
  import opened Common
  import opened Text

  /** JSON numbers are integers here (money is counted in centavos); objects and lists are ordered PHP arrays. */
  datatype Value = Null | Bool(b: bool) | Num(n: int) | Str(s: string) | Arr(entries: seq<Entry>)

  datatype Entry = Entry(key: string, val: Value)

  /** The request body: field name to value. A body that is not a JSON object is the empty map. */
  type Data = map<string, Value>

  /** PHP's string conversion of a scalar (`null` and `false` give "", `true` gives "1").
      An array has no string form: PHP's `trim` returns null for it (with a warning). */
  function AsText(v: Value): (r: Option<string>)
    ensures r.None? <==> v.Arr?
  {
    match v
    case Null => Some("")
    case Bool(b) => Some(if b then "1" else "")
    case Num(n) => Some(IntToString(n))
    case Str(s) => Some(s)
    case Arr(_) => None
  }

  /** A text field of a typed request, put back into the body it was decoded from (absent when `None`). */
  function PutText(d: Data, key: string, v: Option<string>): Data {
    if v.Some? then d[key := Str(v.value)] else d
  }

  /** A numeric field of a typed request, put back into the body it was decoded from (absent when `None`). */
  function PutNum(d: Data, key: string, v: Option<int>): Data {
    if v.Some? then d[key := Num(v.value)] else d
  }
}

=== FILE: rest_api.dfy ===
/** The REST backend (`backend/api.php`) as a class over its tables. Each handler is one atomic step (the
    transactions of the source either commit every write or none), `now` and `today` are the clock (the database's;
    PHP's for the transfer reception stamp), and `numero` the order number the database generates. */
module RestApi {
  import opened Common
  import opened Validation
  import opened Sorting
  import opened RestModel

  class Ledger {
    var orders: map<int, Order>
    var parts: seq<Part>
    var transfers: map<int, Transfer>
    var branches: map<int, Branch>
    var clients: map<int, Client>
    var history: seq<HistoryEntry>
    var nextOrderId: int
    var nextPartId: int
    var nextTransferId: int

    /** Auto-increment ids are positive and below the next one; part ids are unique; every order's total is its
        estimate plus its parts and labour. */
    ghost predicate Valid()
      reads this
    {
      && 0 < nextOrderId && 0 < nextPartId && 0 < nextTransferId
      && (forall id :: id in orders ==> 0 < id < nextOrderId)
      && (forall i :: 0 <= i < |parts| ==> 0 < parts[i].id < nextPartId)
      && UniqueIds(parts)
      && (forall id :: id in transfers ==> 0 < id < nextTransferId)
      && (forall id :: id in orders ==> TotalsConsistent(orders[id]))
    }

    constructor (clients: map<int, Client>, branches: map<int, Branch>, history: seq<HistoryEntry>)
      ensures Valid()
      ensures this.clients == clients && this.branches == branches && this.history == history
      ensures orders == map[] && parts == [] && transfers == map[]
    {
      this.clients := clients;
      this.branches := branches;
      this.history := history;
      orders := map[];
      parts := [];
      transfers := map[];
      nextOrderId, nextPartId, nextTransferId := 1, 1, 1;
    }

    // ------------------------------------------------------------ orders

    /** `POST /ordenes`: rejected with the missing fields, or one new row under a fresh id. */
    method CreateOrder(r: NewOrder, numero: string, now: int) returns (reply: Reply)
      requires Valid()
      modifies this
      ensures Valid()
      ensures reply.Rejected? <==> !(r.idCliente.Some? && r.idSucursal.Some? && !Blank(r.device.tipo) && !Blank(r.falla))
      ensures reply.Rejected? ==>
        reply.failure == FieldsMissing(MissingFields(OrderInput(r), OrderRequired)) &&
        orders == old(orders) && nextOrderId == old(nextOrderId)
      ensures !reply.Rejected? ==>
        reply == CreatedOrder(old(nextOrderId), numero) && old(nextOrderId) !in old(orders) &&
        orders == old(orders)[old(nextOrderId) := NewOrderRow(r, numero, now)] &&
        nextOrderId == old(nextOrderId) + 1
      ensures parts == old(parts) && transfers == old(transfers) && branches == old(branches)
      ensures clients == old(clients) && history == old(history)
      ensures nextPartId == old(nextPartId) && nextTransferId == old(nextTransferId)
    {
      var missing := ValidateRequired(OrderInput(r), OrderRequired);
      OrderValidationIff(r);
      if missing != [] {
        return Rejected(FieldsMissing(missing));
      }
      var id := nextOrderId;
      orders := orders[id := NewOrderRow(r, numero, now)];
      nextOrderId := nextOrderId + 1;
      reply := CreatedOrder(id, numero);
    }

    /** `PUT /ordenes/{id}`: the order (if the id exists) becomes `UpdatedOrder`; an unknown id changes nothing. */
    method UpdateOrder(id: int, p: OrderPatch, now: int) returns (reply: Reply)
      requires Valid()
      modifies this
      ensures Valid()
      ensures !IdGiven(id) ==> reply == Rejected(IdRequired) && orders == old(orders)
      ensures IdGiven(id) ==>
        reply == Done &&
        orders == (if id in old(orders) then old(orders)[id := UpdatedOrder(old(orders)[id], p, now)] else old(orders))
      ensures parts == old(parts) && transfers == old(transfers) && branches == old(branches)
      ensures clients == old(clients) && history == old(history)
      ensures nextOrderId == old(nextOrderId) && nextPartId == old(nextPartId) && nextTransferId == old(nextTransferId)
    {
      if !IdGiven(id) {
        return Rejected(IdRequired);
      }
      if id in orders {
        orders := orders[id := UpdatedOrder(orders[id], p, now)];
      }
      reply := Done;
    }

    /** `DELETE /ordenes/{id}`: a soft cancel; the set of rows and every other order stay as they were. */
    method CancelOrder(id: int) returns (reply: Reply)
      requires Valid()
      modifies this
      ensures Valid()
      ensures !IdGiven(id) ==> reply == Rejected(IdRequired) && orders == old(orders)
      ensures IdGiven(id) ==>
        reply == Done &&
        orders == (if id in old(orders) then old(orders)[id := CancelledOrder(old(orders)[id])] else old(orders))
      ensures orders.Keys == old(orders).Keys
      ensures forall k :: k in orders && k != id ==> orders[k] == old(orders)[k]
      ensures parts == old(parts) && transfers == old(transfers) && branches == old(branches)
      ensures clients == old(clients) && history == old(history)
      ensures nextOrderId == old(nextOrderId) && nextPartId == old(nextPartId) && nextTransferId == old(nextTransferId)
    {
      if !IdGiven(id) {
        return Rejected(IdRequired);
      }
      if id in orders {
        orders := orders[id := CancelledOrder(orders[id])];
      }
      reply := Done;
    }

    /** `GET /ordenes/{id}`: the order with its client, branch, parts (table order) and history (newest first). */
    method GetOrder(id: int) returns (result: Option<OrderDetail>)
      requires Valid()
      ensures result.None? <==>
        !(id in orders && orders[id].clienteId in clients && orders[id].sucursalId in branches)
      ensures result.Some? ==>
        var d := result.value;
        d.order == orders[id] && d.client == clients[orders[id].clienteId] &&
        d.branch == branches[orders[id].sucursalId] && d.parts == PartsOf(parts, id) &&
        SortedDesc(d.history, EntryDate) &&
        multiset(d.history) == multiset(HistoryOf(history, id))
    {
      if !(id in orders && orders[id].clienteId in clients && orders[id].sucursalId in branches) {
        return None;
      }
      var o := orders[id];
      var hist := SortDesc(HistoryOf(history, id), EntryDate);
      result := Some(OrderDetail(o, clients[o.clienteId], branches[o.sucursalId], PartsOf(parts, id), hist));
    }

    /** The `WHERE` clause of `GET /ordenes`: one row per order that passes the filter, in no particular order. */
    method CollectListed(f: ListFilter, today: int) returns (found: seq<OrderRow>)
      requires Valid()
      ensures forall r :: r in found ==>
        Listed(orders, clients, branches, r.id, f) && r == RowOf(orders, clients, branches, r.id, today)
      ensures forall id :: Listed(orders, clients, branches, id, f) ==> RowOf(orders, clients, branches, id, today) in found
      ensures Distinct(found)
    {
      found := [];
      for id := 1 to nextOrderId
        invariant forall r :: r in found ==>
          Listed(orders, clients, branches, r.id, f) && r == RowOf(orders, clients, branches, r.id, today)
          && r.id < id
        invariant forall k :: 0 < k < id && Listed(orders, clients, branches, k, f) ==>
          RowOf(orders, clients, branches, k, today) in found
        invariant Distinct(found)
      {
        if Listed(orders, clients, branches, id, f) {
          found := found + [RowOf(orders, clients, branches, id, today)];
        }
      }
    }

    /** `GET /ordenes`: the matching orders, newest first, at most 200 of them; an order left out is no newer than
        the last one shown, and only when the page is full. */
    method ListOrders(f: ListFilter, today: int) returns (rows: seq<OrderRow>)
      requires Valid()
      ensures forall r :: r in rows ==>
        Listed(orders, clients, branches, r.id, f) && r == RowOf(orders, clients, branches, r.id, today)
      ensures forall r :: r in rows ==> r.saldoPendiente == r.valorTotal - r.anticipo
      ensures Distinct(rows) && |rows| <= ListCap && SortedDesc(rows, RowDate)
      ensures forall id ::
        (Listed(orders, clients, branches, id, f) && RowOf(orders, clients, branches, id, today) !in rows) ==>
        |rows| == ListCap && orders[id].recibidoEn <= rows[ListCap - 1].fechaRecepcion
    {
      var found := CollectListed(f, today);
      var sorted := SortDesc(found, RowDate);
      PermutationKeepsDistinct(found, sorted);
      var n := if |sorted| < ListCap then |sorted| else ListCap;
      rows := sorted[..n];
      assert forall r :: r in rows ==> r in multiset(sorted);
      forall id | Listed(orders, clients, branches, id, f) && RowOf(orders, clients, branches, id, today) !in rows
        ensures |rows| == ListCap && orders[id].recibidoEn <= rows[ListCap - 1].fechaRecepcion
      {
        var row := RowOf(orders, clients, branches, id, today);
        assert row in multiset(found);
        OmittedFromPrefix(sorted, n, RowDate, row);
      }
    }

    // ------------------------------------------------------------ parts

    /** `SELECT COALESCE(SUM(precio_total), 0) ... WHERE id_orden = oid`. */
    method SumPartsOf(oid: int) returns (total: int)
      ensures total == PartsCost(parts, oid)
    {
      total := 0;
      var i := 0;
      while i < |parts|
        invariant 0 <= i <= |parts|
        invariant total == PartsCost(parts[..i], oid)
      {
        assert parts[..i + 1][..i] == parts[..i];
        if parts[i].ordenId == oid {
          total := total + PriceTotal(parts[i]);
        }
        i := i + 1;
      }
      assert parts[..i] == parts;
    }

    /** `SELECT id_orden FROM repuestos_utilizados WHERE id = pid`. */
    method FindPartOrder(pid: int) returns (found: Option<int>)
      requires Valid()
      ensures found.None? <==> !HasPart(parts, pid)
      ensures found.Some? ==> found.value == OwnerOf(parts, pid)
    {
      var i := 0;
      while i < |parts|
        invariant 0 <= i <= |parts|
        invariant forall k :: 0 <= k < i ==> parts[k].id != pid
      {
        if parts[i].id == pid {
          OwnerAt(parts, i);
          return Some(parts[i].ordenId);
        }
        i := i + 1;
      }
      return None;
    }

    /** `POST /repuestos`: one new part row, then the rollup of its order's parts cost and total. */
    method AddPart(r: NewPart) returns (reply: Reply)
      requires Valid()
      modifies this
      ensures Valid()
      ensures reply.Rejected? <==>
        !(r.idOrden.Some? && !Blank(r.descripcion) && r.cantidad.Some? && r.precioUnitario.Some?)
      ensures reply.Rejected? ==>
        reply.failure == FieldsMissing(MissingFields(PartInput(r), PartRequired)) &&
        parts == old(parts) && orders == old(orders) && nextPartId == old(nextPartId)
      ensures !reply.Rejected? ==>
        var oid := r.idOrden.value;
        var p := Part(old(nextPartId), oid, r.descripcion.value, r.cantidad.value, r.precioUnitario.value);
        && reply == Created(old(nextPartId)) && !HasPart(old(parts), p.id)
        && parts == old(parts) + [p]
        && nextPartId == old(nextPartId) + 1
        && orders == (if oid in old(orders) then old(orders)[oid := Rollup(old(orders)[oid], PartsCost(parts, oid))]
                      else old(orders))
        && (oid in orders ==> InSync(orders[oid], parts, oid))
        && (forall k :: k in old(orders) && k != oid && InSync(old(orders)[k], old(parts), k) ==>
              InSync(orders[k], parts, k))
      ensures transfers == old(transfers) && branches == old(branches) && clients == old(clients)
      ensures history == old(history) && nextOrderId == old(nextOrderId) && nextTransferId == old(nextTransferId)
    {
      var missing := ValidateRequired(PartInput(r), PartRequired);
      PartValidationIff(r);
      if missing != [] {
        return Rejected(FieldsMissing(missing));
      }
      var oid := r.idOrden.value;
      var p := Part(nextPartId, oid, r.descripcion.value, r.cantidad.value, r.precioUnitario.value);
      AppendPart(p);
      var sum := SumPartsOf(oid);
      if oid in orders {
        orders := orders[oid := Rollup(orders[oid], sum)];
      }
      reply := Created(p.id);
    }

    /** The `INSERT` statement alone: the new row goes to the end of the parts table under the next id. */
    method AppendPart(p: Part)
      requires Valid() && p.id == nextPartId
      modifies this`parts, this`nextPartId
      ensures Valid()
      ensures parts == old(parts) + [p] && nextPartId == old(nextPartId) + 1 && !HasPart(old(parts), p.id)
      ensures forall k :: k != p.ordenId ==> PartsCost(parts, k) == PartsCost(old(parts), k)
    {
      ghost var before := parts;
      parts := parts + [p];
      nextPartId := nextPartId + 1;
      forall k | k != p.ordenId ensures PartsCost(parts, k) == PartsCost(before, k) {
        PartsCostAppend(before, p, k);
      }
      assert forall i :: 0 <= i < |before| ==> parts[i] == before[i];
    }

    /** `DELETE /repuestos/{id}`: the row goes, then its order's parts cost (0 when none remain) and total are
        recomputed. An unknown part id changes nothing. */
    method RemovePart(pid: int) returns (reply: Reply)
      requires Valid()
      modifies this
      ensures Valid()
      ensures !IdGiven(pid) ==> reply == Rejected(IdRequired) && parts == old(parts) && orders == old(orders)
      ensures IdGiven(pid) ==> reply == Done && parts == Without(old(parts), pid)
      ensures IdGiven(pid) && !HasPart(old(parts), pid) ==> parts == old(parts) && orders == old(orders)
      ensures IdGiven(pid) && HasPart(old(parts), pid) ==>
        var oid := OwnerOf(old(parts), pid);
        && |parts| == |old(parts)| - 1
        && orders == (if oid in old(orders) then old(orders)[oid := Rollup(old(orders)[oid], PartsCost(parts, oid))]
                      else old(orders))
        && (oid in orders ==> InSync(orders[oid], parts, oid))
        && (forall j :: j in old(orders) && j != oid && InSync(old(orders)[j], old(parts), j) ==>
              InSync(orders[j], parts, j))
      ensures transfers == old(transfers) && branches == old(branches) && clients == old(clients)
      ensures history == old(history)
      ensures nextOrderId == old(nextOrderId) && nextPartId == old(nextPartId) && nextTransferId == old(nextTransferId)
    {
      if !IdGiven(pid) {
        return Rejected(IdRequired);
      }
      var found := FindPartOrder(pid);
      if found.None? {
        WithoutAbsent(parts, pid);
        return Done;
      }
      var oid := found.value;
      DropPart(pid);
      var sum := SumPartsOf(oid);
      if oid in orders {
        orders := orders[oid := Rollup(orders[oid], sum)];
      }
      reply := Done;
    }

    /** The `DELETE` statement alone: the row with id `pid` leaves the parts table. */
    method DropPart(pid: int)
      requires Valid() && HasPart(parts, pid)
      modifies this`parts
      ensures Valid()
      ensures parts == Without(old(parts), pid) && |parts| == |old(parts)| - 1
      ensures forall j :: j != OwnerOf(old(parts), pid) ==> PartsCost(parts, j) == PartsCost(old(parts), j)
    {
      ghost var before := parts;
      ghost var k :| 0 <= k < |parts| && parts[k].id == pid;
      OwnerAt(parts, k);
      parts := Without(parts, pid);
      forall i | 0 <= i < |parts| ensures 0 < parts[i].id < nextPartId {
        WithoutKeepsOthers(before, pid, parts[i]);
      }
      WithoutStaysUnique(before, pid);
      PartsCostWithout(before, k, 0);
      forall j ensures j != OwnerOf(before, pid) ==> PartsCost(parts, j) == PartsCost(before, j) {
        PartsCostWithout(before, k, j);
      }
    }

    // ------------------------------------------------------------ transfers and branches

    /** `POST /traslados`: rejected with the missing fields, or one new pending transfer under a fresh id. */
    method CreateTransfer(r: NewTransfer, now: int) returns (reply: Reply)
      requires Valid()
      modifies this
      ensures Valid()
      ensures reply.Rejected? <==> !(r.idOrden.Some? && r.idOrigen.Some? && r.idDestino.Some?)
      ensures reply.Rejected? ==>
        reply.failure == FieldsMissing(MissingFields(TransferInput(r), TransferRequired)) &&
        transfers == old(transfers) && nextTransferId == old(nextTransferId)
      ensures !reply.Rejected? ==>
        reply == Created(old(nextTransferId)) && old(nextTransferId) !in old(transfers) &&
        transfers == old(transfers)[old(nextTransferId) := NewTransferRow(r, now)] &&
        nextTransferId == old(nextTransferId) + 1
      ensures orders == old(orders) && parts == old(parts) && branches == old(branches)
      ensures clients == old(clients) && history == old(history)
      ensures nextOrderId == old(nextOrderId) && nextPartId == old(nextPartId)
    {
      var missing := ValidateRequired(TransferInput(r), TransferRequired);
      TransferValidationIff(r);
      if missing != [] {
        return Rejected(FieldsMissing(missing));
      }
      var id := nextTransferId;
      transfers := transfers[id := NewTransferRow(r, now)];
      nextTransferId := nextTransferId + 1;
      reply := Created(id);
    }

    /** `PUT /traslados/{id}`: state and receiver from the request, reception date stamped for 'Recibido' and
        cleared otherwise. No transition is refused. */
    method UpdateTransfer(id: int, p: TransferPatch, now: int) returns (reply: Reply)
      requires Valid()
      modifies this
      ensures Valid()
      ensures !IdGiven(id) ==> reply == Rejected(IdRequired) && transfers == old(transfers)
      ensures IdGiven(id) ==>
        reply == Done &&
        transfers == (if id in old(transfers) then old(transfers)[id := UpdatedTransfer(old(transfers)[id], p, now)]
                      else old(transfers))
      ensures id in transfers ==> StampMatchesState(transfers[id]) || !IdGiven(id)
      ensures orders == old(orders) && parts == old(parts) && branches == old(branches)
      ensures clients == old(clients) && history == old(history)
      ensures nextOrderId == old(nextOrderId) && nextPartId == old(nextPartId) && nextTransferId == old(nextTransferId)
    {
      if !IdGiven(id) {
        return Rejected(IdRequired);
      }
      if id in transfers {
        transfers := transfers[id := UpdatedTransfer(transfers[id], p, now)];
      }
      reply := Done;
    }

    /** `DELETE /sucursales/{id}`: a soft delete that only clears `activo`. */
    method DeactivateBranch(id: int) returns (reply: Reply)
      requires Valid()
      modifies this
      ensures Valid()
      ensures !IdGiven(id) ==> reply == Rejected(IdRequired) && branches == old(branches)
      ensures IdGiven(id) ==>
        reply == Done &&
        branches == (if id in old(branches) then old(branches)[id := Deactivated(old(branches)[id])] else old(branches))
      ensures branches.Keys == old(branches).Keys
      ensures orders == old(orders) && parts == old(parts) && transfers == old(transfers)
      ensures clients == old(clients) && history == old(history)
      ensures nextOrderId == old(nextOrderId) && nextPartId == old(nextPartId) && nextTransferId == old(nextTransferId)
    {
      if !IdGiven(id) {
        return Rejected(IdRequired);
      }
      if id in branches {
        branches := branches[id := Deactivated(branches[id])];
      }
      reply := Done;
    }
  }
}

=== FILE: rest_model.dfy ===
/** Rows, requests and row transformers of the REST backend (`backend/api.php`), with the properties of each
    transformer. The class `RestApi.Ledger` applies them to its tables. Money is in centavos, times are seconds
    on the shop's local clock. */
module RestModel {
  import opened Common
  import opened Text
  import opened Input
  import opened Validation

  const Cancelled := "Cancelado"
  const TransferPending := "Pendiente"
  const TransferInTransit := "En Tránsito"
  const TransferReceived := "Recibido"
  /** The `LIMIT` of the order listing. */
  const ListCap := 200

  // ---------------------------------------------------------------- rows

  datatype Device = Device(tipo: Option<string>, marca: Option<string>, modelo: Option<string>,
                           color: Option<string>, datosAcceso: Option<string>, accesorios: Option<string>)

  datatype Money = Money(estimado: int, anticipo: int, repuestos: int, trabajo: int, total: int)

  /** A row of `ordenes`. Columns the update writes without a default (`estado`, `tipo_equipo`,
      `falla_reportada`) may hold null. */
  datatype Order = Order(numero: string, clienteId: int, sucursalId: int, device: Device,
                         falla: Option<string>, detalleTrabajo: Option<string>, estado: Option<string>,
                         money: Money, recibidoEn: int, fechaEstimada: Option<string>,
                         fechaEntrega: Option<int>, observaciones: Option<string>,
                         recibidoPor: Option<string>, entregadoPor: Option<string>)

  datatype Client = Client(nombre: string, telefono: string, correo: Option<string>)

  datatype Branch = Branch(nombre: string, direccion: string, telefono: Option<string>,
                           zona: Option<string>, ciudad: string, activo: bool)

  /** A row of `repuestos_utilizados`. */
  datatype Part = Part(id: int, ordenId: int, descripcion: string, cantidad: int, precioUnitario: int)

  /** A row of `traslados`. */
  datatype Transfer = Transfer(ordenId: int, origen: int, destino: int, motivo: Option<string>,
                               enviadoPor: Option<string>, observaciones: Option<string>,
                               estado: Option<string>, recibidoPor: Option<string>,
                               fechaEnvio: int, fechaRecepcion: Option<int>)

  // ---------------------------------------------------------------- requests and replies

  datatype NewOrder = NewOrder(idCliente: Option<int>, idSucursal: Option<int>, device: Device,
                               falla: Option<string>, costoEstimado: Option<int>, anticipo: Option<int>,
                               fechaEstimada: Option<string>, observaciones: Option<string>,
                               recibidoPor: Option<string>)

  datatype OrderPatch = OrderPatch(device: Device, falla: Option<string>, detalleTrabajo: Option<string>,
                                   estado: Option<string>, costoEstimado: Option<int>, anticipo: Option<int>,
                                   costoRepuestos: Option<int>, costoTrabajo: Option<int>,
                                   fechaEstimada: Option<string>, observaciones: Option<string>,
                                   entregadoPor: Option<string>)

  datatype NewPart = NewPart(idOrden: Option<int>, descripcion: Option<string>, cantidad: Option<int>,
                             precioUnitario: Option<int>)

  datatype NewTransfer = NewTransfer(idOrden: Option<int>, idOrigen: Option<int>, idDestino: Option<int>,
                                     motivo: Option<string>, enviadoPor: Option<string>,
                                     observaciones: Option<string>)

  datatype TransferPatch = TransferPatch(estado: Option<string>, recibidoPor: Option<string>)

  /** The query-string filters of the order listing. */
  datatype ListFilter = ListFilter(sucursal: Option<int>, estado: Option<string>,
                                   desde: Option<int>, hasta: Option<int>)

  /** One row of the order listing: the order joined with its client and branch. */
  datatype OrderRow = OrderRow(id: int, numero: string, fechaRecepcion: int, estado: Option<string>,
                               tipoEquipo: Option<string>, marca: Option<string>, modelo: Option<string>,
                               falla: Option<string>, valorTotal: int, anticipo: int, saldoPendiente: int,
                               clienteNombre: string, clienteTelefono: string, sucursalNombre: string,
                               diasEnTaller: int)

  /** The full order as `GET /ordenes/{id}` returns it. */
  datatype OrderDetail = OrderDetail(order: Order, client: Client, branch: Branch,
                                     parts: seq<Part>, history: seq<HistoryEntry>)

  // ---------------------------------------------------------------- required fields

  const OrderRequired := ["id_cliente", "id_sucursal", "tipo_equipo", "falla_reportada"]
  const PartRequired := ["id_orden", "descripcion", "cantidad", "precio_unitario"]
  const TransferRequired := ["id_orden", "id_sucursal_origen", "id_sucursal_destino"]

  /** The fields of a creation body that `validateRequired` inspects. */
  function OrderInput(r: NewOrder): Data {
    PutNum(PutNum(PutText(PutText(map[], "falla_reportada", r.falla), "tipo_equipo", r.device.tipo),
                  "id_sucursal", r.idSucursal), "id_cliente", r.idCliente)
  }

  function PartInput(r: NewPart): Data {
    PutNum(PutNum(PutText(PutNum(map[], "id_orden", r.idOrden), "descripcion", r.descripcion),
                  "cantidad", r.cantidad), "precio_unitario", r.precioUnitario)
  }

  function TransferInput(r: NewTransfer): Data {
    PutNum(PutNum(PutNum(map[], "id_orden", r.idOrden), "id_sucursal_origen", r.idOrigen),
           "id_sucursal_destino", r.idDestino)
  }

  /** A number is never blank, so a numeric field is reported exactly when it is absent. */
  lemma PutNumMissing(d: Data, key: string, v: Option<int>)
    ensures v.Some? ==> !IsMissing(PutNum(d, key, v), key)
    ensures v.None? ==> PutNum(d, key, v) == d
  {
    if v.Some? {
      assert AsText(Num(v.value)) == Some(IntToString(v.value));
      NumberNeverBlank(v.value);
    }
  }

  /** An order is created exactly when client, branch, device type and reported fault are all given and non-blank. */
  lemma OrderValidationIff(r: NewOrder)
    ensures MissingFields(OrderInput(r), OrderRequired) == [] <==>
            r.idCliente.Some? && r.idSucursal.Some? && !Blank(r.device.tipo) && !Blank(r.falla)
  {
    var d0 := PutText(map[], "falla_reportada", r.falla);
    var d1 := PutText(d0, "tipo_equipo", r.device.tipo);
    var d2 := PutNum(d1, "id_sucursal", r.idSucursal);
    var d := PutNum(d2, "id_cliente", r.idCliente);
    PutNumMissing(d2, "id_cliente", r.idCliente);
    PutNumMissing(d1, "id_sucursal", r.idSucursal);
    if r.idCliente.Some? && r.idSucursal.Some? && !Blank(r.device.tipo) && !Blank(r.falla) {
      forall f | f in OrderRequired ensures !IsMissing(d, f) {
        assert f == "id_cliente" || f == "id_sucursal" || f == "tipo_equipo" || f == "falla_reportada";
      }
      MissingFieldsEmptyIff(d, OrderRequired);
    } else {
      var f := if r.idCliente.None? then "id_cliente" else if r.idSucursal.None? then "id_sucursal"
               else if Blank(r.device.tipo) then "tipo_equipo" else "falla_reportada";
      assert IsMissing(d, f);
      assert f in OrderRequired;
      MissingFieldsMembership(d, OrderRequired, f);
    }
  }

  /** A part is added exactly when order, description, quantity and unit price are all given and the description
      is non-blank. */
  lemma PartValidationIff(r: NewPart)
    ensures MissingFields(PartInput(r), PartRequired) == [] <==>
            r.idOrden.Some? && !Blank(r.descripcion) && r.cantidad.Some? && r.precioUnitario.Some?
  {
    var d0 := PutNum(map[], "id_orden", r.idOrden);
    var d1 := PutText(d0, "descripcion", r.descripcion);
    var d2 := PutNum(d1, "cantidad", r.cantidad);
    var d := PutNum(d2, "precio_unitario", r.precioUnitario);
    PutNumMissing(map[], "id_orden", r.idOrden);
    PutNumMissing(d1, "cantidad", r.cantidad);
    PutNumMissing(d2, "precio_unitario", r.precioUnitario);
    if r.idOrden.Some? && !Blank(r.descripcion) && r.cantidad.Some? && r.precioUnitario.Some? {
      forall f | f in PartRequired ensures !IsMissing(d, f) {
        assert f == "id_orden" || f == "descripcion" || f == "cantidad" || f == "precio_unitario";
      }
      MissingFieldsEmptyIff(d, PartRequired);
    } else {
      var f := if r.idOrden.None? then "id_orden" else if Blank(r.descripcion) then "descripcion"
               else if r.cantidad.None? then "cantidad" else "precio_unitario";
      assert IsMissing(d, f);
      assert f in PartRequired;
      MissingFieldsMembership(d, PartRequired, f);
    }
  }

  /** A transfer is created exactly when order, origin and destination are all given: nothing compares origin
      with destination. */
  lemma TransferValidationIff(r: NewTransfer)
    ensures MissingFields(TransferInput(r), TransferRequired) == [] <==>
            r.idOrden.Some? && r.idOrigen.Some? && r.idDestino.Some?
  {
    var d0 := PutNum(map[], "id_orden", r.idOrden);
    var d1 := PutNum(d0, "id_sucursal_origen", r.idOrigen);
    var d := PutNum(d1, "id_sucursal_destino", r.idDestino);
    PutNumMissing(map[], "id_orden", r.idOrden);
    PutNumMissing(d0, "id_sucursal_origen", r.idOrigen);
    PutNumMissing(d1, "id_sucursal_destino", r.idDestino);
    if r.idOrden.Some? && r.idOrigen.Some? && r.idDestino.Some? {
      forall f | f in TransferRequired ensures !IsMissing(d, f) {
        assert f == "id_orden" || f == "id_sucursal_origen" || f == "id_sucursal_destino";
      }
      MissingFieldsEmptyIff(d, TransferRequired);
    } else {
      var f := if r.idOrden.None? then "id_orden" else if r.idOrigen.None? then "id_sucursal_origen"
               else "id_sucursal_destino";
      assert IsMissing(d, f);
      assert f in TransferRequired;
      MissingFieldsMembership(d, TransferRequired, f);
    }
  }

  /** The decimal form of a number has no blank characters, so `trim` never empties it. */
  lemma NumberNeverBlank(n: int)
    ensures Trim(IntToString(n)) != ""
  {
    TrimEmptyIffAllSpace(IntToString(n));
    assert !IsSpace(IntToString(n)[0]);
  }

  // ---------------------------------------------------------------- orders

  /** `valor_total` is the sum of its three cost components. */
  predicate TotalsConsistent(o: Order) {
    o.money.total == o.money.estimado + o.money.repuestos + o.money.trabajo
  }

  /** The row `INSERT INTO ordenes` creates. The INSERT leaves `estado`, `costo_repuestos`, `costo_trabajo`,
      `valor_total` and `fecha_recepcion` to the column defaults of the schema: taken as 'Recibido', 0, 0, the
      estimated cost and now. So a new order starts in 'Recibido', undelivered, for the requested client and
      branch, with no parts or labour cost and a consistent total. */
  function NewOrderRow(r: NewOrder, numero: string, now: int): (o: Order)
    requires r.idCliente.Some? && r.idSucursal.Some?
    ensures o.numero == numero && o.clienteId == r.idCliente.value && o.sucursalId == r.idSucursal.value
    ensures o.estado == Some(Intake) && o.fechaEntrega.None? && o.recibidoEn == now
    ensures o.money.repuestos == 0 && o.money.trabajo == 0 && TotalsConsistent(o)
    ensures o.money.estimado == r.costoEstimado.GetOr(0) && o.money.anticipo == r.anticipo.GetOr(0)
    ensures o.device == r.device && o.falla == r.falla && o.fechaEstimada == r.fechaEstimada
    ensures o.observaciones == r.observaciones && o.recibidoPor == r.recibidoPor
  {
    var est := r.costoEstimado.GetOr(0);
    Order(numero, r.idCliente.value, r.idSucursal.value, r.device, r.falla, None, Some(Intake),
          Money(est, r.anticipo.GetOr(0), 0, 0, est), now, r.fechaEstimada, None, r.observaciones,
          r.recibidoPor, None)
  }

  /** The order after `PUT /ordenes/{id}`: the listed columns come from the request, each cost defaulting to 0,
      `valor_total` is recomputed as their sum, and `fecha_entrega` is stamped (again, on every such save) when
      the new state is 'Entregado' and left alone otherwise. The order number, the client, the branch, the intake
      time and who received it are never touched. */
  function UpdatedOrder(o: Order, p: OrderPatch, now: int): (u: Order)
    ensures TotalsConsistent(u)
    ensures u.money.total == p.costoEstimado.GetOr(0) + p.costoRepuestos.GetOr(0) + p.costoTrabajo.GetOr(0)
    ensures p.estado == Some(Delivered) ==> u.fechaEntrega == Some(now)
    ensures p.estado != Some(Delivered) ==> u.fechaEntrega == o.fechaEntrega
    ensures u.numero == o.numero && u.clienteId == o.clienteId && u.sucursalId == o.sucursalId
    ensures u.recibidoEn == o.recibidoEn && u.recibidoPor == o.recibidoPor
    ensures u.estado == p.estado && u.money.estimado == p.costoEstimado.GetOr(0)
    ensures u.money.repuestos == p.costoRepuestos.GetOr(0) && u.money.trabajo == p.costoTrabajo.GetOr(0)
    ensures u.money.anticipo == p.anticipo.GetOr(0)
    ensures u.device == p.device && u.falla == p.falla && u.detalleTrabajo == p.detalleTrabajo
    ensures u.fechaEstimada == p.fechaEstimada && u.observaciones == p.observaciones && u.entregadoPor == p.entregadoPor
  {
    var est := p.costoEstimado.GetOr(0);
    var rep := p.costoRepuestos.GetOr(0);
    var trab := p.costoTrabajo.GetOr(0);
    o.(device := p.device, falla := p.falla, detalleTrabajo := p.detalleTrabajo, estado := p.estado,
       money := Money(est, p.anticipo.GetOr(0), rep, trab, est + rep + trab),
       fechaEstimada := p.fechaEstimada, observaciones := p.observaciones, entregadoPor := p.entregadoPor,
       fechaEntrega := if p.estado == Some(Delivered) then Some(now) else o.fechaEntrega)
  }

  /** Re-saving a delivered order as 'Entregado' moves its delivery time: the stamp is not set only once. */
  lemma RedeliveryMovesStamp(o: Order, p: OrderPatch, now: int)
    requires o.estado == Some(Delivered) && o.fechaEntrega.Some? && o.fechaEntrega.value < now
    requires p.estado == Some(Delivered)
    ensures UpdatedOrder(o, p, now).fechaEntrega != o.fechaEntrega
  {
  }

  /** The soft delete: the state becomes 'Cancelado', nothing else changes. */
  function CancelledOrder(o: Order): (c: Order)
    ensures c.estado == Some(Cancelled)
    ensures c.(estado := o.estado) == o
  {
    o.(estado := Some(Cancelled))
  }

  // ---------------------------------------------------------------- parts and the rollup

  /** `precio_total` is filled in by the database, not by the backend: it is taken to be quantity times unit price,
      the amount the detail page shows before a part is added. */
  function PriceTotal(p: Part): int {
    p.cantidad * p.precioUnitario
  }

  /** `COALESCE(SUM(precio_total), 0)` over the parts of order `oid`: 0 for an order without parts. */
  function PartsCost(parts: seq<Part>, oid: int): (r: int)
    ensures (forall i :: 0 <= i < |parts| ==> parts[i].ordenId != oid) ==> r == 0
  {
    if parts == [] then 0
    else
      var last := parts[|parts| - 1];
      PartsCost(parts[..|parts| - 1], oid) + (if last.ordenId == oid then PriceTotal(last) else 0)
  }

  /** `DELETE FROM repuestos_utilizados WHERE id = pid`: no row with that id remains, and no row is added. */
  function Without(parts: seq<Part>, pid: int): (r: seq<Part>)
    ensures |r| <= |parts|
    ensures forall i :: 0 <= i < |r| ==> r[i].id != pid
  {
    if parts == [] then []
    else
      var last := parts[|parts| - 1];
      Without(parts[..|parts| - 1], pid) + (if last.id == pid then [] else [last])
  }

  predicate UniqueIds(parts: seq<Part>) {
    forall i, j :: 0 <= i < j < |parts| ==> parts[i].id != parts[j].id
  }

  predicate HasPart(parts: seq<Part>, pid: int) {
    exists i :: 0 <= i < |parts| && parts[i].id == pid
  }

  /** The order a part belongs to (`SELECT id_orden ... WHERE id = pid`); `OwnerAt` says which row decides it. */
  function OwnerOf(parts: seq<Part>, pid: int): int
    requires HasPart(parts, pid)
  {
    var last := parts[|parts| - 1];
    if last.id == pid then last.ordenId
    else
      assert HasPart(parts[..|parts| - 1], pid) by {
        var i :| 0 <= i < |parts| && parts[i].id == pid;
        assert parts[..|parts| - 1][i] == parts[i];
      }
      OwnerOf(parts[..|parts| - 1], pid)
  }

  /** With unique ids, the owner is the order of the row that carries the id. */
  lemma {:induction false} OwnerAt(parts: seq<Part>, k: nat)
    requires k < |parts| && UniqueIds(parts)
    ensures HasPart(parts, parts[k].id) && OwnerOf(parts, parts[k].id) == parts[k].ordenId
  {
    if k < |parts| - 1 {
      var init := parts[..|parts| - 1];
      assert forall i :: 0 <= i < |init| ==> init[i] == parts[i];
      OwnerAt(init, k);
    }
  }

  /** The order's parts cost and total after the rollup over its parts. */
  function Rollup(o: Order, partsCost: int): (r: Order)
    ensures r.money.repuestos == partsCost && TotalsConsistent(r)
    ensures r.(money := o.money) == o
    ensures r.money.estimado == o.money.estimado && r.money.trabajo == o.money.trabajo
    ensures r.money.anticipo == o.money.anticipo
  {
    o.(money := o.money.(repuestos := partsCost,
                         total := o.money.estimado + partsCost + o.money.trabajo))
  }

  /** The order's stored parts cost is the sum over its parts, and its total matches. */
  predicate InSync(o: Order, parts: seq<Part>, oid: int) {
    o.money.repuestos == PartsCost(parts, oid) && TotalsConsistent(o)
  }

  /** Adding a part raises its own order's sum by its price and leaves every other order's sum alone. */
  lemma {:induction false} PartsCostAppend(parts: seq<Part>, p: Part, oid: int)
    ensures PartsCost(parts + [p], oid) == PartsCost(parts, oid) + (if p.ordenId == oid then PriceTotal(p) else 0)
  {
    assert (parts + [p])[..|parts|] == parts;
  }

  /** Deleting an id that is not in the table changes nothing. */
  lemma {:induction false} WithoutAbsent(parts: seq<Part>, pid: int)
    requires !HasPart(parts, pid)
    ensures Without(parts, pid) == parts
  {
    if parts != [] {
      var init := parts[..|parts| - 1];
      assert forall i :: 0 <= i < |init| ==> init[i] == parts[i];
      WithoutAbsent(init, pid);
      assert parts == init + [parts[|parts| - 1]];
    }
  }

  /** The delete keeps exactly the rows with another id. */
  lemma {:induction false} WithoutKeepsOthers(parts: seq<Part>, pid: int, q: Part)
    ensures q in Without(parts, pid) <==> q in parts && q.id != pid
  {
    if parts != [] {
      var init := parts[..|parts| - 1];
      WithoutKeepsOthers(init, pid, q);
      assert parts == init + [parts[|parts| - 1]];
    }
  }

  /** Deleting a part lowers its own order's sum by its price and leaves every other order's sum alone. */
  lemma {:induction false} PartsCostWithout(parts: seq<Part>, k: nat, oid: int)
    requires k < |parts| && UniqueIds(parts)
    ensures PartsCost(Without(parts, parts[k].id), oid)
         == PartsCost(parts, oid) - (if parts[k].ordenId == oid then PriceTotal(parts[k]) else 0)
    ensures |Without(parts, parts[k].id)| == |parts| - 1
  {
    var pid := parts[k].id;
    var init := parts[..|parts| - 1];
    var last := parts[|parts| - 1];
    assert forall i :: 0 <= i < |init| ==> init[i] == parts[i];
    if k == |parts| - 1 {
      WithoutAbsent(init, pid);
      assert Without(parts, pid) == init;
    } else {
      assert init[k] == parts[k];
      PartsCostWithout(init, k, oid);
      PartsCostAppend(Without(init, pid), last, oid);
    }
  }

  /** The delete keeps part ids unique. */
  lemma {:induction false} WithoutStaysUnique(parts: seq<Part>, pid: int)
    requires UniqueIds(parts)
    ensures UniqueIds(Without(parts, pid))
  {
    if parts != [] {
      var init := parts[..|parts| - 1];
      var last := parts[|parts| - 1];
      assert forall i :: 0 <= i < |init| ==> init[i] == parts[i];
      WithoutStaysUnique(init, pid);
      var w := Without(init, pid);
      if last.id != pid {
        forall i | 0 <= i < |w| ensures w[i].id != last.id {
          WithoutKeepsOthers(init, pid, w[i]);
        }
      }
    }
  }

  /** Adding a part and then deleting it restores the table (ids are fresh), hence every order's sum. */
  lemma AddThenRemove(parts: seq<Part>, p: Part)
    requires !HasPart(parts, p.id)
    ensures Without(parts + [p], p.id) == parts
  {
    assert (parts + [p])[..|parts|] == parts;
    WithoutAbsent(parts, p.id);
  }

  /** An order update takes `costo_repuestos` from the request, so it can leave the parts cost out of step with
      the parts: here an order with one 50.00 part is saved with the parts cost omitted. */
  lemma UpdateCanDesyncParts()
    ensures var parts := [Part(1, 7, "pantalla", 2, 2500)];
            var o := Rollup(Order("ORD-1", 1, 1, Device(Some("laptop"), None, None, None, None, None),
                                  Some("no enciende"), None, Some(Intake), Money(10000, 5000, 0, 0, 10000),
                                  0, None, None, None, None, None), 5000);
            var p := OrderPatch(o.device, o.falla, None, Some("En reparación"), Some(10000), Some(5000),
                                None, None, None, None, None);
            InSync(o, parts, 7) && !InSync(UpdatedOrder(o, p, 60), parts, 7)
  {
    var parts := [Part(1, 7, "pantalla", 2, 2500)];
    assert PartsCost(parts, 7) == PartsCost([], 7) + 5000;
  }

  /** Worked example: estimate 100.00 and deposit 50.00; a part of 2 x 25.00 raises the total to
      150.00 and the balance to 100.00; removing it restores 100.00 and 50.00. */
  lemma PartRollupScenario(o: Order, oid: int)
    requires o.money == Money(10000, 5000, 0, 0, 10000)
    ensures var p := Part(1, oid, "bateria", 2, 2500);
            var added := Rollup(o, PartsCost([p], oid));
            var removed := Rollup(added, PartsCost(Without([p], 1), oid));
            added.money.repuestos == 5000 && added.money.total == 15000 &&
            added.money.total - added.money.anticipo == 10000 &&
            removed.money == o.money && removed.money.total - removed.money.anticipo == 5000
  {
    var p := Part(1, oid, "bateria", 2, 2500);
    assert PartsCost([p], oid) == PartsCost([], oid) + 5000;
    assert Without([p], 1) == Without([], 1);
  }

  // ---------------------------------------------------------------- listing

  /** Every supplied (truthy) filter holds; the dates compare by day, inclusively. */
  predicate FilterMatches(o: Order, f: ListFilter) {
    && (f.sucursal.Some? && IdGiven(f.sucursal.value) ==> o.sucursalId == f.sucursal.value)
    && (f.estado.Some? && Truthy(f.estado.value) ==> o.estado == f.estado)
    && (f.desde.Some? ==> DayOf(o.recibidoEn) >= f.desde.value)
    && (f.hasta.Some? ==> DayOf(o.recibidoEn) <= f.hasta.value)
  }

  /** The order survives the inner joins with `clientes` and `sucursales` and every filter. */
  predicate Listed(orders: map<int, Order>, clients: map<int, Client>, branches: map<int, Branch>,
                   id: int, f: ListFilter) {
    id in orders && orders[id].clienteId in clients && orders[id].sucursalId in branches
    && FilterMatches(orders[id], f)
  }

  /** PHP's truthiness: a branch filter of 0 and a state filter of "" or "0" are ignored, as if not sent. */
  lemma FalsyFiltersIgnored(orders: map<int, Order>, clients: map<int, Client>, branches: map<int, Branch>,
                            id: int, f: ListFilter, falsy: string)
    requires falsy == "" || falsy == "0"
    ensures Listed(orders, clients, branches, id, f.(sucursal := Some(0), estado := Some(falsy)))
        <==> Listed(orders, clients, branches, id, f.(sucursal := None, estado := None))
  {
  }

  /** The listing's projection of an order joined with its client and branch, with the balance still owed and the
      whole days since intake. */
  function RowOf(orders: map<int, Order>, clients: map<int, Client>, branches: map<int, Branch>,
                 id: int, today: int): (r: OrderRow)
    requires id in orders && orders[id].clienteId in clients && orders[id].sucursalId in branches
    ensures r.id == id && r.numero == orders[id].numero && r.fechaRecepcion == orders[id].recibidoEn
    ensures r.estado == orders[id].estado
    ensures r.valorTotal == orders[id].money.total && r.anticipo == orders[id].money.anticipo
    ensures r.saldoPendiente == orders[id].money.total - orders[id].money.anticipo
    ensures r.clienteNombre == clients[orders[id].clienteId].nombre
    ensures r.sucursalNombre == branches[orders[id].sucursalId].nombre
    ensures r.diasEnTaller == today - DayOf(orders[id].recibidoEn)
  {
    var o := orders[id];
    OrderRow(id, o.numero, o.recibidoEn, o.estado, o.device.tipo, o.device.marca, o.device.modelo, o.falla,
             o.money.total, o.money.anticipo, o.money.total - o.money.anticipo,
             clients[o.clienteId].nombre, clients[o.clienteId].telefono, branches[o.sucursalId].nombre,
             today - DayOf(o.recibidoEn))
  }

  function RowDate(r: OrderRow): int {
    r.fechaRecepcion
  }

  /** `SELECT * FROM repuestos_utilizados WHERE id_orden = ?`, in table order. */
  function PartsOf(parts: seq<Part>, oid: int): (r: seq<Part>)
    ensures forall q :: q in r <==> q in parts && q.ordenId == oid
  {
    if parts == [] then []
    else
      var last := parts[|parts| - 1];
      PartsOf(parts[..|parts| - 1], oid) + (if last.ordenId == oid then [last] else [])
  }

  /** The parts cost is the sum over exactly the rows `PartsOf` returns. */
  lemma {:induction false} PartsCostOverPartsOf(parts: seq<Part>, oid: int)
    ensures PartsCost(PartsOf(parts, oid), oid) == PartsCost(parts, oid)
  {
    if parts != [] {
      var init := parts[..|parts| - 1];
      var last := parts[|parts| - 1];
      PartsCostOverPartsOf(init, oid);
      if last.ordenId == oid {
        PartsCostAppend(PartsOf(init, oid), last, oid);
      } else {
        assert PartsOf(parts, oid) == PartsOf(init, oid);
      }
    }
  }

  // ---------------------------------------------------------------- transfers

  /** The row `INSERT INTO traslados` creates; state and send time are column defaults of the schema, taken as
      'Pendiente' and the time of the request. */
  function NewTransferRow(r: NewTransfer, now: int): (t: Transfer)
    requires r.idOrden.Some? && r.idOrigen.Some? && r.idDestino.Some?
    ensures t.ordenId == r.idOrden.value && t.origen == r.idOrigen.value && t.destino == r.idDestino.value
    ensures t.estado == Some(TransferPending) && t.fechaEnvio == now && WellFormedTransfer(t)
  {
    Transfer(r.idOrden.value, r.idOrigen.value, r.idDestino.value, r.motivo, r.enviadoPor, r.observaciones,
             Some(TransferPending), None, now, None)
  }

  /** `fecha_recepcion` as the update writes it: now for 'Recibido', null for anything else. */
  function ReceptionStamp(estado: Option<string>, now: int): Option<int> {
    if estado == Some(TransferReceived) then Some(now) else None
  }

  /** The transfer after `PUT /traslados/{id}`: state and receiver from the request (receiver defaulting to null).
      Whatever the transfer was before, the reception date ends up in step with the state, and nothing but state,
      receiver and reception date changes. */
  function UpdatedTransfer(t: Transfer, p: TransferPatch, now: int): (u: Transfer)
    ensures StampMatchesState(u) && (u.fechaRecepcion.Some? ==> u.fechaRecepcion.value == now)
    ensures u.estado == p.estado && u.recibidoPor == p.recibidoPor
    ensures u.(estado := t.estado, recibidoPor := t.recibidoPor, fechaRecepcion := t.fechaRecepcion) == t
  {
    t.(estado := p.estado, recibidoPor := p.recibidoPor, fechaRecepcion := ReceptionStamp(p.estado, now))
  }

  /** The reception date is set exactly when the state is 'Recibido'. */
  predicate StampMatchesState(t: Transfer) {
    t.fechaRecepcion.Some? <==> t.estado == Some(TransferReceived)
  }

  /** The stricter workflow the transfer page offers: 'Pendiente' to 'En Tránsito', then 'En Tránsito' to
      'Recibido' with the receiver's name. The backend does not check it. */
  predicate UiStep(t: Transfer, p: TransferPatch) {
    || (t.estado == Some(TransferPending) && p.estado == Some(TransferInTransit))
    || (t.estado == Some(TransferInTransit) && p.estado == Some(TransferReceived)
        && p.recibidoPor.Some? && p.recibidoPor.value != "")
  }

  /** The creation form of the transfer page never offers the origin as destination. */
  predicate UiCreateAllowed(r: NewTransfer) {
    r.idOrigen.Some? && r.idDestino.Some? && r.idOrigen.value != r.idDestino.value
  }

  /** A transfer that follows the workflow: reception date in step, and a received one names its receiver. */
  predicate WellFormedTransfer(t: Transfer) {
    StampMatchesState(t)
    && (t.estado == Some(TransferReceived) ==> t.recibidoPor.Some? && t.recibidoPor.value != "")
  }

  /** Applies the page's steps in turn while they are allowed; returns the transfer and how many were applied. */
  function ApplyUiSteps(t: Transfer, steps: seq<TransferPatch>, now: int): (Transfer, nat)
    decreases |steps|
  {
    if steps == [] || !UiStep(t, steps[0]) then (t, 0)
    else
      var (u, n) := ApplyUiSteps(UpdatedTransfer(t, steps[0], now), steps[1..], now);
      (u, n + 1)
  }

  function Rank(estado: Option<string>): nat {
    if estado == Some(TransferPending) then 2
    else if estado == Some(TransferInTransit) then 1
    else 0
  }

  /** Along the page's workflow a new transfer takes at most two steps, stays well formed, and ends pending,
      in transit or received; once received no step is allowed. */
  lemma {:induction false} UiWorkflowBounded(t: Transfer, steps: seq<TransferPatch>, now: int)
    requires WellFormedTransfer(t)
    requires t.estado in {Some(TransferPending), Some(TransferInTransit), Some(TransferReceived)}
    ensures var (u, n) := ApplyUiSteps(t, steps, now);
      n <= Rank(t.estado) && WellFormedTransfer(u) &&
      u.estado in {Some(TransferPending), Some(TransferInTransit), Some(TransferReceived)}
    decreases |steps|
  {
    if steps != [] && UiStep(t, steps[0]) {
      var u := UpdatedTransfer(t, steps[0], now);
      assert Rank(u.estado) < Rank(t.estado);
      UiWorkflowBounded(u, steps[1..], now);
    }
  }

  /** The backend accepts what the page forbids: a received transfer put back to 'Pendiente' loses its reception
      date and receiver. */
  lemma BackendReopensReceived(t: Transfer, now: int)
    requires t.estado == Some(TransferReceived) && t.fechaRecepcion.Some?
    ensures var p := TransferPatch(Some(TransferPending), None);
      !UiStep(t, p) && UpdatedTransfer(t, p, now).fechaRecepcion.None? &&
      UpdatedTransfer(t, p, now).recibidoPor.None?
  {
  }

  /** The backend accepts a reception without a receiver, which the page requires: the transfer is received,
      stamped, and names nobody, so it is not well formed. */
  lemma BackendReceivesWithoutReceiver(t: Transfer, now: int)
    requires t.estado == Some(TransferInTransit)
    ensures var p := TransferPatch(Some(TransferReceived), None);
      var u := UpdatedTransfer(t, p, now);
      !UiStep(t, p) && u.estado == Some(TransferReceived) && u.fechaRecepcion == Some(now) &&
      u.recibidoPor.None? && !WellFormedTransfer(u)
  {
  }

  /** The backend accepts a transfer whose destination is its origin; the page would not send it. */
  lemma BackendAcceptsSameBranch()
    ensures var r := NewTransfer(Some(3), Some(1), Some(1), None, None, None);
      MissingFields(TransferInput(r), TransferRequired) == [] && !UiCreateAllowed(r)
  {
    var r := NewTransfer(Some(3), Some(1), Some(1), None, None, None);
    TransferValidationIff(r);
  }

  /** The soft delete of a branch: deactivated, nothing else changes. */
  function Deactivated(b: Branch): (r: Branch)
    ensures !r.activo && r.(activo := b.activo) == b
  {
    b.(activo := false)
  }
}

=== FILE: sanitize.dfy ===
/** `sanitizeInput` from the example configuration: trim, then strip tags and escape, recursively through arrays.
    Tag stripping and HTML escaping are library calls whose internals are not modelled: they are the parameter `escape`. */
module Sanitize {
  import opened Text
  import opened Input

  /** The scalar case: the value is trimmed before `strip_tags` and `htmlspecialchars` see it. */
  function SanitizeText(s: string, escape: string -> string): string
  {
    escape(Trim(s))
  }

  /** `sanitizeInput($data)`: `array_map` over an array, the scalar transform otherwise. */
  function SanitizeInput(v: Value, escape: string -> string): (r: Value)
    ensures v.Arr? <==> r.Arr?
    ensures v.Arr? ==>
      |r.entries| == |v.entries| && (forall i :: 0 <= i < |v.entries| ==> r.entries[i].key == v.entries[i].key)
    ensures !v.Arr? ==> r.Str?
    decreases v
  {
    match v
    case Arr(es) =>
      Arr(seq(|es|, i requires 0 <= i < |es| => Entry(es[i].key, SanitizeInput(es[i].val, escape))))
    case _ => Str(SanitizeText(AsText(v).value, escape))
  }

  /** The key structure of a value: scalars are leaves, arrays keep their keys in order. */
  datatype Shape = Leaf | Node(keys: seq<string>, children: seq<Shape>)

  function ShapeOf(v: Value): Shape
    decreases v
  {
    match v
    case Arr(es) => Node(seq(|es|, i requires 0 <= i < |es| => es[i].key),
                         seq(|es|, i requires 0 <= i < |es| => ShapeOf(es[i].val)))
    case _ => Leaf
  }

  /** Every scalar inside the value is a string. */
  predicate AllText(v: Value)
    decreases v
  {
    match v
    case Arr(es) => forall i :: 0 <= i < |es| ==> AllText(es[i].val)
    case _ => v.Str?
  }

  /** Sanitizing keeps every array's keys, their order and its length, at every depth. */
  lemma {:induction false} SanitizePreservesShape(v: Value, escape: string -> string)
    ensures ShapeOf(SanitizeInput(v, escape)) == ShapeOf(v)
    decreases v
  {
    match v
    case Arr(es) =>
      var r := SanitizeInput(v, escape);
      forall i | 0 <= i < |es|
        ensures ShapeOf(r.entries[i].val) == ShapeOf(es[i].val)
      {
        SanitizePreservesShape(es[i].val, escape);
      }
    case _ =>
  }

  /** Every scalar of the result, at any depth, is a string. */
  lemma {:induction false} SanitizedIsAllText(v: Value, escape: string -> string)
    ensures AllText(SanitizeInput(v, escape))
    decreases v
  {
    match v
    case Arr(es) =>
      forall i | 0 <= i < |es|
        ensures AllText(SanitizeInput(es[i].val, escape))
      {
        SanitizedIsAllText(es[i].val, escape);
      }
    case _ =>
  }

  /** Because trimming comes first, surrounding blanks never reach the escape step. */
  lemma {:induction false} SanitizeIgnoresSurroundingBlanks(s: string, escape: string -> string)
    ensures SanitizeInput(Str(s), escape) == SanitizeInput(Str(Trim(s)), escape)
  {
    var t := Trim(s);
    TrimIdempotent(s);
    assert SanitizeInput(Str(t), escape) == Str(escape(Trim(t)));
    assert SanitizeInput(Str(s), escape) == Str(escape(t));
  }

  /** The scalars of a value as text, depth first, in the order of the array entries. */
  function Leaves(v: Value): seq<string>
    decreases v, 1
  {
    match v
    case Arr(es) => EntryLeaves(es)
    case _ => [AsText(v).value]
  }

  function EntryLeaves(es: seq<Entry>): seq<string>
    decreases es, 0
  {
    if es == [] then [] else Leaves(es[0].val) + EntryLeaves(es[1..])
  }

  /** The scalar transform applied to each text in turn. */
  function Escaped(ls: seq<string>, escape: string -> string): (r: seq<string>)
    ensures |r| == |ls| && forall i :: 0 <= i < |ls| ==> r[i] == escape(Trim(ls[i]))
  {
    seq(|ls|, i requires 0 <= i < |ls| => escape(Trim(ls[i])))
  }

  /** The entries of a sanitized array. */
  function SanitizeEntries(es: seq<Entry>, escape: string -> string): (r: seq<Entry>)
    ensures |r| == |es| && forall i :: 0 <= i < |es| ==> r[i] == Entry(es[i].key, SanitizeInput(es[i].val, escape))
  {
    seq(|es|, i requires 0 <= i < |es| => Entry(es[i].key, SanitizeInput(es[i].val, escape)))
  }

  /** Every scalar is sanitized where it stands: the leaves of the result are the leaves of the input, each
      trimmed and then escaped. With `SanitizePreservesShape`, this is `array_map` applied at every depth. */
  lemma {:induction false} SanitizedLeaves(v: Value, escape: string -> string)
    ensures Leaves(SanitizeInput(v, escape)) == Escaped(Leaves(v), escape)
    decreases v, 1
  {
    match v
    case Arr(es) =>
      assert SanitizeInput(v, escape) == Arr(SanitizeEntries(es, escape));
      SanitizedEntryLeaves(es, escape);
    case _ =>
  }

  lemma {:induction false} SanitizedEntryLeaves(es: seq<Entry>, escape: string -> string)
    ensures EntryLeaves(SanitizeEntries(es, escape)) == Escaped(EntryLeaves(es), escape)
    decreases es, 0
  {
    if es != [] {
      var r := SanitizeEntries(es, escape);
      assert r[1..] == SanitizeEntries(es[1..], escape);
      SanitizedLeaves(es[0].val, escape);
      SanitizedEntryLeaves(es[1..], escape);
      var a := Leaves(es[0].val);
      var b := EntryLeaves(es[1..]);
      assert Escaped(a + b, escape) == Escaped(a, escape) + Escaped(b, escape);
    }
  }
}

=== FILE: sorting.dfy ===
/** `ORDER BY <column> DESC` followed by `LIMIT`/`OFFSET`, as used by the order listings of both backends. */
module Sorting {

  /** Non-increasing by `key`: newest first when `key` is a timestamp. */
  predicate SortedDesc<T>(s: seq<T>, key: T -> int) {
    forall i, j :: 0 <= i < j < |s| ==> key(s[i]) >= key(s[j])
  }

  ghost predicate Distinct<T>(s: seq<T>) {
    forall i, j :: 0 <= i < j < |s| ==> s[i] != s[j]
  }

  /** Places `x` after every element whose key is at least `x`'s. */
  method InsertDesc<T>(s: seq<T>, x: T, key: T -> int) returns (r: seq<T>)
    requires SortedDesc(s, key)
    ensures SortedDesc(r, key)
    ensures multiset(r) == multiset(s) + multiset{x}
  {
    var i := 0;
    while i < |s| && key(s[i]) >= key(x)
      invariant 0 <= i <= |s|
      invariant forall k :: 0 <= k < i ==> key(s[k]) >= key(x)
    {
      i := i + 1;
    }
    r := s[..i] + [x] + s[i..];
    assert s == s[..i] + s[i..];
  }

  /** Insertion sort, newest first; the result is a permutation of the input. */
  method SortDesc<T>(s: seq<T>, key: T -> int) returns (r: seq<T>)
    ensures SortedDesc(r, key)
    ensures multiset(r) == multiset(s)
  {
    r := [];
    for i := 0 to |s|
      invariant SortedDesc(r, key)
      invariant multiset(r) == multiset(s[..i])
    {
      assert s[..i + 1] == s[..i] + [s[i]];
      r := InsertDesc(r, s[i], key);
    }
    assert s[..|s|] == s;
  }

  lemma {:induction false} DistinctCountsAtMostOne<T>(s: seq<T>, x: T)
    requires Distinct(s)
    ensures multiset(s)[x] <= 1
  {
    if s != [] {
      var init := s[..|s| - 1];
      assert s == init + [s[|s| - 1]];
      assert Distinct(init);
      DistinctCountsAtMostOne(init, x);
      if x == s[|s| - 1] {
        assert x !in init;
      }
    }
  }

  lemma RepeatCountsTwice<T>(s: seq<T>, i: nat, j: nat)
    requires i < j < |s| && s[i] == s[j]
    ensures multiset(s)[s[i]] >= 2
  {
    assert s == s[..j] + [s[j]] + s[j + 1..];
    assert s[i] == s[..j][i];
  }

  /** A permutation of a sequence without repetitions has none either. */
  lemma PermutationKeepsDistinct<T>(a: seq<T>, b: seq<T>)
    requires multiset(a) == multiset(b) && Distinct(a)
    ensures Distinct(b)
  {
    forall i, j | 0 <= i < j < |b| ensures b[i] != b[j] {
      if b[i] == b[j] {
        RepeatCountsTwice(b, i, j);
        DistinctCountsAtMostOne(a, b[i]);
      }
    }
  }

  /** An element left out of the first `n` of a newest-first sequence comes after all of them:
      the prefix is full and ends with something at least as new. */
  lemma OmittedFromPrefix<T>(s: seq<T>, n: nat, key: T -> int, x: T)
    requires SortedDesc(s, key) && n <= |s|
    requires x in s && x !in s[..n]
    ensures n < |s|
    ensures n > 0 ==> key(x) <= key(s[n - 1])
  {
    var k :| 0 <= k < |s| && s[k] == x;
    assert forall i :: 0 <= i < n ==> s[..n][i] == s[i];
  }
}

=== FILE: text.dfy ===
/** PHP's `trim` with its default character list, and the decimal form of an integer. */
module Text {

  /** The characters `trim` strips by default: space, tab, newline, carriage return, NUL and vertical tab. */
  predicate IsSpace(c: char) {
    c == ' ' || c == '\t' || c == '\n' || c == '\r' || c == '\0' || c == '\U{0B}'
  }

  predicate AllSpace(s: string) {
    forall i :: 0 <= i < |s| ==> IsSpace(s[i])
  }

  function TrimLeft(s: string): (r: string)
    ensures |r| <= |s|
    ensures r != [] ==> !IsSpace(r[0])
  {
    if s == [] || !IsSpace(s[0]) then s else TrimLeft(s[1..])
  }

  function TrimRight(s: string): (r: string)
    ensures |r| <= |s|
    ensures r != [] ==> !IsSpace(r[|r| - 1])
  {
    if s == [] || !IsSpace(s[|s| - 1]) then s else TrimRight(s[..|s| - 1])
  }

  lemma {:induction false} TrimRightIsPrefix(s: string)
    ensures TrimRight(s) == s[..|TrimRight(s)|]
  {
    if s != [] && IsSpace(s[|s| - 1]) {
      TrimRightIsPrefix(s[..|s| - 1]);
    }
  }

  /** `trim($s)`: strip the default characters from both ends. */
  function Trim(s: string): (r: string)
    ensures |r| <= |s|
    ensures r != [] ==> !IsSpace(r[0]) && !IsSpace(r[|r| - 1])
  {
    TrimRightIsPrefix(TrimLeft(s));
    TrimRight(TrimLeft(s))
  }

  lemma {:induction false} AllSpaceSplit(s: string, k: nat)
    requires k <= |s|
    ensures AllSpace(s) <==> AllSpace(s[..k]) && AllSpace(s[k..])
  {
    if AllSpace(s[..k]) && AllSpace(s[k..]) {
      forall i | 0 <= i < |s| ensures IsSpace(s[i]) {
        if i < k { assert s[i] == s[..k][i]; } else { assert s[i] == s[k..][i - k]; }
      }
    }
  }

  lemma {:induction false} TrimRightEmptyIff(s: string)
    ensures TrimRight(s) == [] <==> AllSpace(s)
  {
    if s != [] {
      var init := s[..|s| - 1];
      AllSpaceSplit(s, |s| - 1);
      if IsSpace(s[|s| - 1]) {
        TrimRightEmptyIff(init);
        assert AllSpace(s[|s| - 1..]);
      } else {
        assert !IsSpace(s[|s| - 1..][0]);
      }
    }
  }

  lemma {:induction false} TrimLeftKeepsAllSpace(s: string)
    ensures AllSpace(TrimLeft(s)) <==> AllSpace(s)
  {
    if s != [] && IsSpace(s[0]) {
      TrimLeftKeepsAllSpace(s[1..]);
      AllSpaceSplit(s, 1);
      assert AllSpace(s[..1]);
    }
  }

  /** `trim($s) === ''` exactly when every character of `$s` is one that trim strips. */
  lemma {:induction false} TrimEmptyIffAllSpace(s: string)
    ensures Trim(s) == "" <==> AllSpace(s)
  {
    TrimRightEmptyIff(TrimLeft(s));
    TrimLeftKeepsAllSpace(s);
  }

  /** Trimming twice changes nothing more than trimming once. */
  lemma {:induction false} TrimIdempotent(s: string)
    ensures Trim(Trim(s)) == Trim(s)
  {
    var t := Trim(s);
    if t != [] {
      TrimRightIsPrefix(TrimLeft(s));
      assert t[0] == TrimLeft(s)[0];
      assert TrimLeft(t) == t;
      assert TrimRight(t) == t;
    }
  }

  /** A string with no strippable character at either end is its own trim. */
  lemma TrimKeepsTrimmed(s: string)
    requires s == [] || (!IsSpace(s[0]) && !IsSpace(s[|s| - 1]))
    ensures Trim(s) == s
  {
    assert TrimLeft(s) == s;
  }

  /** `ltrim` removes a run of strippable characters from the front and keeps the rest as it is. */
  lemma {:induction false} TrimLeftIsSuffix(s: string)
    ensures TrimLeft(s) == s[|s| - |TrimLeft(s)|..] && AllSpace(s[..|s| - |TrimLeft(s)|])
  {
    if s != [] && IsSpace(s[0]) {
      var t := s[1..];
      TrimLeftIsSuffix(t);
      var k := |t| - |TrimLeft(t)|;
      assert s[1..][k..] == s[k + 1..];
      var front := s[..k + 1];
      forall i | 0 <= i < |front| ensures IsSpace(front[i]) {
        if 0 < i { assert front[i] == t[..k][i - 1]; }
      }
    }
  }

  /** `rtrim` removes a run of strippable characters from the back and keeps the rest as it is. */
  lemma {:induction false} TrimRightDropsSpace(s: string)
    ensures TrimRight(s) == s[..|TrimRight(s)|] && AllSpace(s[|TrimRight(s)|..])
  {
    TrimRightIsPrefix(s);
    if s != [] && IsSpace(s[|s| - 1]) {
      var init := s[..|s| - 1];
      TrimRightDropsSpace(init);
      var k := |TrimRight(init)|;
      forall i | k <= i < |s| ensures IsSpace(s[i]) {
        if i < |s| - 1 { assert s[i] == init[k..][i - k]; }
      }
    }
  }

  /** `trim($s)` is the middle of `$s`: what is left after a run of strippable characters is removed from each
      end. With the ends of the result not strippable (the ensures of `Trim`), this determines the result. */
  lemma TrimIsMiddle(s: string)
    ensures exists i :: 0 <= i && i + |Trim(s)| <= |s| && Trim(s) == s[i..i + |Trim(s)|]
                        && AllSpace(s[..i]) && AllSpace(s[i + |Trim(s)|..])
  {
    var l := TrimLeft(s);
    TrimLeftIsSuffix(s);
    TrimRightDropsSpace(l);
    var i := |s| - |l|;
    var n := |Trim(s)|;
    assert Trim(s) == s[i..i + n];
    forall j | i + n <= j < |s| ensures IsSpace(s[j]) {
      assert s[j] == l[n..][j - i - n];
    }
    assert AllSpace(s[i + n..]);
  }

  function DigitChar(d: nat): (c: char)
    requires d < 10
    ensures '0' <= c <= '9'
  {
    ['0', '1', '2', '3', '4', '5', '6', '7', '8', '9'][d]
  }

  function NatToString(n: nat): (r: string)
    ensures |r| >= 1
    ensures forall i :: 0 <= i < |r| ==> '0' <= r[i] <= '9'
    decreases n
  {
    if n < 10 then [DigitChar(n)] else NatToString(n / 10) + [DigitChar(n % 10)]
  }

  /** PHP's string conversion of an integer: optional minus sign and decimal digits. */
  function IntToString(n: int): (r: string)
    ensures |r| >= 1
    ensures forall i :: 0 <= i < |r| ==> !IsSpace(r[i])
  {
    if n < 0 then "-" + NatToString(-n) else NatToString(n)
  }
}

=== FILE: validation.dfy ===
/** `validateRequired` from both configuration files: the required fields that are absent or blank. */
module Validation {
  import opened Common
  import opened Text
  import opened Input

  /** Absent, null, or trimming to the empty string. */
  predicate Blank(s: Option<string>) {
    s.None? || Trim(s.value) == ""
  }

  /** A field is reported when `isset` fails (absent or null) or when its value trims to the empty string. */
  predicate IsMissing(data: Data, field: string) {
    field !in data
    || data[field].Null?
    || (AsText(data[field]).Some? && Trim(AsText(data[field]).value) == "")
  }

  /** A field is missing exactly when it is absent, null, or a scalar made only of the characters `trim` strips;
      an array is never blank. */
  lemma IsMissingIff(data: Data, field: string)
    ensures IsMissing(data, field) <==>
      field !in data || data[field].Null? || (!data[field].Arr? && AllSpace(AsText(data[field]).value))
  {
    if field in data && !data[field].Arr? {
      TrimEmptyIffAllSpace(AsText(data[field]).value);
    }
  }

  /** The missing fields, in the order they were required. */
  function MissingFields(data: Data, fields: seq<string>): (r: seq<string>)
    ensures |r| <= |fields|
  {
    if fields == [] then []
    else
      var last := fields[|fields| - 1];
      MissingFields(data, fields[..|fields| - 1]) + (if IsMissing(data, last) then [last] else [])
  }

  /** `a` can be obtained from `b` by deleting elements. */
  predicate IsSubsequence(a: seq<string>, b: seq<string>) {
    a == [] ||
    (b != [] &&
      ((a[|a| - 1] == b[|b| - 1] && IsSubsequence(a[..|a| - 1], b[..|b| - 1]))
      || IsSubsequence(a, b[..|b| - 1])))
  }

  /** A field is reported exactly when it is required and missing. */
  lemma {:induction false} MissingFieldsMembership(data: Data, fields: seq<string>, f: string)
    ensures f in MissingFields(data, fields) <==> f in fields && IsMissing(data, f)
  {
    if fields != [] {
      var init := fields[..|fields| - 1];
      MissingFieldsMembership(data, init, f);
      assert fields == init + [fields[|fields| - 1]];
    }
  }

  /** The report keeps the order of the required list: it is a subsequence of it. */
  lemma {:induction false} MissingFieldsIsSubsequence(data: Data, fields: seq<string>)
    ensures IsSubsequence(MissingFields(data, fields), fields)
  {
    if fields != [] {
      var init := fields[..|fields| - 1];
      var last := fields[|fields| - 1];
      MissingFieldsIsSubsequence(data, init);
      var r := MissingFields(data, fields);
      if IsMissing(data, last) {
        assert r[..|r| - 1] == MissingFields(data, init);
      } else {
        assert r == MissingFields(data, init);
      }
    }
  }

  /** The report is empty exactly when every required field is present and non-blank (so always for an empty list). */
  lemma {:induction false} MissingFieldsEmptyIff(data: Data, fields: seq<string>)
    ensures MissingFields(data, fields) == [] <==> forall f :: f in fields ==> !IsMissing(data, f)
  {
    if MissingFields(data, fields) == [] {
      forall f | f in fields ensures !IsMissing(data, f) {
        MissingFieldsMembership(data, fields, f);
      }
    } else {
      var f := MissingFields(data, fields)[0];
      MissingFieldsMembership(data, fields, f);
    }
  }

  /** The `foreach` of `validateRequired`, accumulating into `$missing`. */
  method ValidateRequired(data: Data, fields: seq<string>) returns (missing: seq<string>)
    ensures missing == MissingFields(data, fields)
    ensures forall f :: f in missing <==> f in fields && IsMissing(data, f)
    ensures IsSubsequence(missing, fields)
  {
    missing := [];
    var i := 0;
    while i < |fields|
      invariant 0 <= i <= |fields|
      invariant missing == MissingFields(data, fields[..i])
    {
      var field := fields[i];
      assert fields[..i + 1][..i] == fields[..i];
      if IsMissing(data, field) {
        missing := missing + [field];
      }
      i := i + 1;
    }
    assert fields[..i] == fields;
    forall f ensures f in missing <==> f in fields && IsMissing(data, f) {
      MissingFieldsMembership(data, fields, f);
    }
    MissingFieldsIsSubsequence(data, fields);
  }
}
